=== FILE: README.md ===
# Link manager: a Dafny model of its link actions, client store and helpers

The application is a small multi-user bookmark ("link") manager. Signed-in users
create, list, edit and delete their own links. An ADMIN can list everybody's
links, change user roles and open the link-management page. This project models:

- the six server actions on links, with their authentication and ownership checks;
- the role-update action and the admin page's session check;
- the client-side link list that the management page edits, and the page's form handlers;
- the two pure string helpers `normalizeName` and `VALID_DOMAINS`.

Every operation is a pure function. Each server action maps (session, store, input)
to (response, new store, revalidated paths). The client store maps a link list and
its arguments to a new list. The page handlers map the page state to a new page
state. The string helpers map strings to strings.

| file | module | models |
|---|---|---|
| `common.dfy` | `Common` | `Option` (null / undefined) |
| `model.dfy` | `Model` | roles, session, `User` and `Link` rows, the store, responses; the `findFirst`, `findMany` and `orderBy createdAt desc` queries |
| `links_actions.dfy` | `LinkActions` | `src/actions/links.actions.ts` |
| `user_role.dfy` | `UserRoleAction` | `src/actions/update-user-role.ts` |
| `admin_gate.dfy` | `AdminGate` | `src/components/LinksUpdateServerWrapper.tsx` |
| `client_store.dfy` | `ClientStore` | `src/contexts/LinksContext.tsx` |
| `client_page.dfy` | `ClientPage` | the handlers of `src/components/LinksUpdateClientPage.tsx` |
| `text.dfy` | `Text` | ECMAScript `trim`, `split(/\s+/)`, `split(",")`, `join`, ASCII case mapping |
| `utils.dfy` | `Utils` | `normalizeName`, `VALID_DOMAINS` of `src/lib/utils.ts` |

How the environment appears in the model:

- **Session.** The session lookup is an input, `Option<SessionUser>`.
- **URL check.** `new URL(s)` is the basic URL parser of the WHATWG URL Standard,
  section 4.4. It appears as a parameter `validUrl: string -> bool` and is never
  interpreted.
- **Database faults.** A database call that throws appears as a parameter `fault`.
  The action's `catch` then returns its generic message.
- **Constraint violations.** Prisma raises these itself, and they reach the same
  `catch`:
  - `create` with a taken id or an unknown owner;
  - `user.update` with an unknown user id.
- **Generated values.** The database-generated id and the `Date.now()` ids are a
  parameter `freshId`. The database's timestamp for a created or updated row is a
  parameter `now`.
- **Clock readings in the client store.** Every `new Date()` is its own parameter,
  and nothing relates two readings:
  - `addLink` reads the clock twice, so it takes `createdAt` and `updatedAt`;
  - the three seed links read it six times, so `InitialLinks` takes six readings;
  - `updateLink` reads it once per matching record, inside the `map` callback, so it
    takes one reading per position (`stamps`).
- **Revalidation.** Each call to `revalidatePath` adds one path, in order, to the
  returned `revalidated` sequence.
- **Redirects.** `redirect(...)` is a `Redirect(path)` outcome.

Notes on what the code does:

- Update and delete give an admin no override. Both look up the row by id AND owner only.
- The server never checks that a title is present. Only the client form does.
- `getLinkAction` answers "Link not found". Update and delete answer with a message
  that merges "not found" with "access denied".
- `updatedAt` is set to the supplied `now` on update. Nothing forces it to increase.

## Model

| member | source | states |
|---|---|---|
| LinkActions.GetLinks | src/actions/links.actions.ts:19-64 | No session gives "Not authenticated". A database fault gives "Failed to fetch links". Otherwise the result is newest first and is a permutation of exactly the caller's links. The action is read-only and revalidates nothing. |
| LinkActions.GetLinksExactlyOwn | src/actions/links.actions.ts:36-43 | A link is in the caller's listing if and only if it is stored and owned by the caller. |
| LinkActions.CreateLink | src/actions/links.actions.ts:67-129 | No session gives "Not authenticated" and an invalid URL gives "Invalid URL format", both with the store unchanged. Creation succeeds exactly when the session exists, the URL is valid and the insert cannot throw. Success appends one link: it has the fresh id, belongs to the caller, has the given title and URL, a null description when the input's was empty or absent, and both timestamps set to now. Success then revalidates "/links" and "/links-update". Any failure changes nothing and revalidates nothing. |
| LinkActions.StoredDescription | src/actions/links.actions.ts:102 | `description \|\| null`: the result is null exactly when the input is absent or empty; otherwise it is the input. |
| LinkActions.CreatePreservesValid | src/actions/links.actions.ts:98-105 | Create keeps link ids unique and every link's owner present. |
| LinkActions.CreateThenList | src/actions/links.actions.ts:36-43 | After a successful create, the new link is in the creator's listing and in no other user's listing. Every other user's listing is unchanged, element for element. |
| LinkActions.UpdateLink | src/actions/links.actions.ts:132-212 | The checks run in order: authentication, then the URL, then the database, then the combined lookup by id and owner. A missing link and another user's link both give "Link not found or access denied" with the store unchanged. Success keeps the store's size. The target row gets the new title, URL and description and `updatedAt = now`; its id, owner and `createdAt` are kept. All other rows are unchanged, and success revalidates both routes. |
| LinkActions.Edit | src/actions/links.actions.ts:179-188 | The row `prisma.link.update` writes: title and URL from the input, a null description exactly when the input's is absent or empty, `updatedAt` set to now; the id, owner and `createdAt` are kept. |
| LinkActions.UpdatePreservesValid | src/actions/links.actions.ts:179-188 | Update keeps link ids unique and owners present. |
| LinkActions.UpdateLeavesOthersAlone | src/actions/links.actions.ts:164-188 | After a successful update, every other user's links are exactly as before. |
| LinkActions.UpdateThenGet | src/actions/links.actions.ts:179-204 | Reading the link back after an update returns the same row as the update's own response. |
| LinkActions.DeleteLink | src/actions/links.actions.ts:215-265 | No session gives "Not authenticated". A database fault gives "Failed to delete link". A missing or foreign link gives the merged not-found message. Delete succeeds exactly when the caller owns a link with that id. Success removes the rows with that id, keeps all other rows, and revalidates both routes. Any failure changes nothing. |
| LinkActions.DeleteRemovesExactlyOne | src/actions/links.actions.ts:231-250 | With unique ids, a successful delete removes exactly one row, owned by the caller. The remaining rows plus that row are the original store. |
| LinkActions.DeleteKeepsOrder | src/actions/links.actions.ts:246-250 | With unique ids, a successful delete of the id at position i leaves the rows before i followed by the rows after i, in their order. |
| LinkActions.DeletePreservesValid | src/actions/links.actions.ts:246-250 | Delete keeps link ids unique and owners present. |
| LinkActions.DeleteThenGet | src/actions/links.actions.ts:246-297 | After a successful delete, reading the same id answers "Link not found". |
| LinkActions.DeleteForeignLinkFails | src/actions/links.actions.ts:231-244 | Deleting another user's link gives the merged not-found message, and the link is still stored. |
| LinkActions.GetLink | src/actions/links.actions.ts:268-318 | The action is read-only. It returns a stored link with that id owned by the caller exactly when one exists; otherwise the error is "Link not found" (or the auth or fetch error). |
| LinkActions.UpdateSeesOnlyOwnLinks | src/actions/links.actions.ts:164-177 | Two stores that hold the same links of the caller give the same update response and revalidations, whatever other users own. |
| LinkActions.DeleteSeesOnlyOwnLinks | src/actions/links.actions.ts:231-244 | Two stores that hold the same links of the caller give the same delete response and revalidations. |
| LinkActions.GetLinkSeesOnlyOwnLinks | src/actions/links.actions.ts:285-297 | Two stores that hold the same links of the caller give the same response to get-one. |
| LinkActions.MissingAndForeignLookAlike | src/actions/links.actions.ts:164-177 | Adding another user's link with the requested id does not change what update or delete answers. |
| LinkActions.GetAllLinksAdmin | src/actions/links.actions.ts:321-373 | The action answers "Admin access required" unless the session exists and its role is ADMIN. For an admin it lists every stored link once, newest first, each with its owner's name and e-mail. The action is read-only. |
| Model.FindOwnedIsLookupAmongOwn | src/actions/links.actions.ts:165-170 | The query `findFirst({ id, userId })` is a lookup by id among the caller's own links only. |
| Model.FindOwned | src/actions/links.actions.ts:165-170 | The query's result is a stored row with that id and owner. It is absent exactly when no such row exists. |
| Model.OwnedBy | src/actions/links.actions.ts:36-39 | `where: { userId }` keeps exactly the rows owned by that user. |
| Model.SortNewestFirst | src/actions/links.actions.ts:40-42 | `orderBy createdAt desc`: the result is a permutation of the input, ordered by descending `createdAt`. |
| Model.WithoutId | src/actions/links.actions.ts:246-250 | `prisma.link.delete({ where: { id } })`: a row survives exactly when it was stored and its id differs. |
| Model.WithoutIdAppend | src/actions/links.actions.ts:246-250 | Removing an id works piece by piece over concatenation, so the survivors keep their storage order. |
| Model.WithoutIdAt | src/actions/links.actions.ts:246-250 | With unique ids, removing the id of row i leaves exactly the rows before i followed by the rows after i. |
| Model.WithoutIdRemovesOne | src/actions/links.actions.ts:246-250 | With unique ids, removing a stored id removes exactly that one row. |
| UserRoleAction.UpdateUserRole | src/actions/update-user-role.ts:8-57 | No session gives "Not authenticated". A non-ADMIN caller gets the permissions error. An unknown user or a fault gives the generic failure. In each of those cases no user changes. For an ADMIN and a known user, that user's role becomes `newRole` and their id, name and e-mail are kept. The response is that record, and all other users and all links are untouched. |
| UserRoleAction.UnauthenticatedNeverSeesPermissionError | src/actions/update-user-role.ts:15-28 | Authentication is checked first: a request with no session never gets the permissions error. |
| UserRoleAction.AdminMayChangeOwnRole | src/actions/update-user-role.ts:23-37 | Permission depends only on the caller's role. An admin can set their own role, demotion included. |
| UserRoleAction.UpdateUserRoleIdempotent | src/actions/update-user-role.ts:31-44 | Setting the same role twice gives the same users as setting it once. |
| UserRoleAction.UpdateUserRolePreservesValid | src/actions/update-user-role.ts:31-44 | The role update keeps the store's integrity constraints. |
| AdminGate.AdminPageGate | src/components/LinksUpdateServerWrapper.tsx:6-25 | No session redirects to "/auth/login". A non-ADMIN session redirects to "/". An ADMIN session renders the page with that session's user. The three cases are exclusive, so an unauthenticated request never reaches the "/" redirect. |
| AdminGate.GateAgreesWithAdminListing | src/components/LinksUpdateServerWrapper.tsx:14-24 | The page renders for exactly the sessions whose admin listing succeeds. |
| ClientStore.InitialLinks | src/contexts/LinksContext.tsx:37-62 | The initial list holds three links with the distinct ids "1", "2" and "3". Link k carries the clock readings 2k and 2k+1 as `createdAt` and `updatedAt`. |
| ClientStore.AddLink | src/contexts/LinksContext.tsx:64-74 | Adding appends exactly one record, with the given id, title, URL and description, and the two clock readings as `createdAt` and `updatedAt`. All earlier records are unchanged and in order. |
| ClientStore.AddThenGet | src/contexts/LinksContext.tsx:64-92 | With a new id, looking the id up after adding returns the added record. |
| ClientStore.AddWithTakenIdIsShadowed | src/contexts/LinksContext.tsx:66-92 | When the generated id already exists, lookups still return the older record. |
| ClientStore.UpdateLink | src/contexts/LinksContext.tsx:76-84 | Updating keeps the length and the ids in order. Matching records get the new title, URL and description, keep `createdAt`, and take their own clock reading as `updatedAt`. Two records with the same id may get different stamps. Other records are unchanged. |
| ClientStore.UpdateAbsent | src/contexts/LinksContext.tsx:76-84 | Updating an id that is not present leaves the list unchanged. |
| ClientStore.UpdateThenGet | src/contexts/LinksContext.tsx:76-92 | Looking an updated id up returns the new values, with the clock reading taken at the first record holding that id. |
| ClientStore.DeleteLink | src/contexts/LinksContext.tsx:86-88 | The survivors are exactly the records whose id differs. |
| ClientStore.DeleteDistributes | src/contexts/LinksContext.tsx:86-88 | Deletion works piece by piece over concatenation, so the survivors keep their relative order. |
| ClientStore.DeleteAbsent | src/contexts/LinksContext.tsx:86-88 | Deleting an id that is not present changes nothing. |
| ClientStore.GetLink | src/contexts/LinksContext.tsx:90-92 | Lookup returns nothing exactly when the id is absent. Otherwise it returns the record at the first position holding that id. |
| ClientStore.FirstIndex | src/contexts/LinksContext.tsx:91 | Where `Array.find` stops: the first position holding the id, or the length of the list exactly when the id is absent. |
| ClientStore.DeleteThenGet | src/contexts/LinksContext.tsx:86-92 | After deleting an id, looking it up returns nothing. |
| ClientPage.Submit | src/components/LinksUpdateClientPage.tsx:30-54 | An empty title, an empty URL or an invalid URL leaves the whole state unchanged. A valid submit works in one of two ways. While editing (a non-empty `editingId`), it updates that id, with one clock reading per stored record, and clears `editingId`. Otherwise it adds a new link stamped with both readings. Either way the form ends empty and hidden. |
| ClientPage.Edit | src/components/LinksUpdateClientPage.tsx:56-64 | Editing loads the link's title, URL and description into the form, using "" for an absent description. It sets `editingId` to the link's id, shows the form and leaves the store alone. |
| ClientPage.Delete | src/components/LinksUpdateClientPage.tsx:66-73 | An unconfirmed delete changes nothing. A confirmed one deletes the id from the store and clears the preview selection when it pointed at that id. |
| ClientPage.Cancel | src/components/LinksUpdateClientPage.tsx:75-79 | Cancelling empties the form, clears `editingId` and hides the form. The store and the preview are untouched. |
| ClientPage.EditThenCancel | src/components/LinksUpdateClientPage.tsx:56-79 | Edit followed by cancel changes only the form state. |
| ClientPage.EditThenSubmitUnchanged | src/components/LinksUpdateClientPage.tsx:45-64 | Editing a stored link and submitting the untouched form keeps the link's id, position, title, URL and `createdAt`, and stamps it with the reading taken at its position. An absent description comes back as "". The form ends closed. |
| ClientPage.DeleteClearsPreview | src/components/LinksUpdateClientPage.tsx:66-73 | After a confirmed delete, the preview does not point at the deleted id and the id cannot be looked up. |
| Utils.NormalizeName | src/lib/utils.ts:9-18 | The output's tokens are the input's tokens, each capitalised: first character upper-case, the rest lower-case (ASCII). So the word count is preserved. The output is single-spaced, with no leading or trailing white space and exactly one space between words. It is "" exactly when the input is empty or all white space. |
| Utils.NormalizeIsJoinOfTokens | src/lib/utils.ts:13-17 | trim, then split on white-space runs, capitalise and join: this equals the capitalised whitespace-separated tokens joined by single spaces. |
| Utils.NormalizeNameIdempotent | src/lib/utils.ts:9-18 | Normalising twice gives the same result as normalising once. |
| Utils.SingleSpacedIsJoin | src/lib/utils.ts:17 | A single-spaced string is its own tokens joined by single spaces. |
| Utils.ValidDomains | src/lib/utils.ts:21-37 | In development the result is ["*"]. Without configuration it is the five default domains. With configuration it holds one entry per comma-separated field (commas + 1), and each entry is the trimmed field. The fields join back with "," to the configured string. Every entry has no edge white space. |
| Text.WordsOfJoin | src/lib/utils.ts:15-17 | Round trip: the tokens of words joined by single spaces are those words. |
| Text.SplitSpacesIsWords | src/lib/utils.ts:14-15 | On a trimmed, non-empty string, `split(/\s+/)` yields exactly the whitespace-separated tokens. |
| Text.WordsOfTrim | src/lib/utils.ts:14 | Trimming does not change the tokens. |
| Text.JoinSingleSpaced | src/lib/utils.ts:17 | Joining non-empty words that contain no white space with " " gives a single-spaced string. |
| Text.SplitOn | src/lib/utils.ts:28 | `split(",")` gives at least one field. No field contains a comma, and joining the fields with "," gives back the input. |
| Text.SplitOnLength | src/lib/utils.ts:28 | `split(",")` yields one more field than there are commas. |
| Text.Trim | src/lib/utils.ts:14 | `trim()` leaves no white space at either end. Its result is empty exactly when the input is all white space. |
| Text.TrimCutsEdgeRuns | src/lib/utils.ts:14 | `trim()` returns a contiguous slice of its input: with a the length of the leading white-space run, the result is the slice starting at a, and only white space lies before and after it. |
| Text.SplitSpaces | src/lib/utils.ts:15 | `split(/\s+/)` gives at least one piece and no piece contains white space. It gives one piece, the input itself, exactly when the input has no white space. The first piece is empty exactly when the input is empty or starts with white space. Every piece strictly between the first and the last is non-empty. |
| Text.SplitSpacesLast | src/lib/utils.ts:15 | The last piece of `split(/\s+/)` is empty exactly when the input is empty or ends with white space. |
| Text.JoinEnds | src/lib/utils.ts:17 | `join(sep)` of a non-empty list starts with the first part and ends with the last one. |
| Text.Capitalize | src/lib/utils.ts:16 | The result has the same length and the same characters up to ASCII case. Its first character is not a lower-case ASCII letter and no later character is an upper-case ASCII letter. An already capitalised word is unchanged, and a word with no white space stays that way. |

## Left out

- Session lookup, `headers()`, the Prisma query engine, `revalidatePath` and `redirect` are framework calls. Each appears only as an input or a returned effect.
- Faults inside the session lookup are left out. `fault` covers database calls only.
- The read-then-write race between `findFirst` and `update`/`delete` is a concurrency concern. Every action runs as one atomic step.
- Real URL parsing is left out. `validUrl` is uninterpreted.
- The order of rows with equal `createdAt` is not fixed by the database. The contracts state only "newest first, a permutation". The model's sort keeps storage order for ties.
- `console.error` logging in the `catch` blocks is left out.
- Text.Capitalize: maps only ASCII letters. JavaScript's full Unicode case mapping (which can change a word's length, e.g. "ß" to "SS") and `charAt` on UTF-16 surrogate pairs are not modelled. White space, by contrast, is the full ECMAScript set.
- The JSX of `LinksUpdateClientPage.tsx` is left out. This includes the direct field edits, the show/hide toggle and the preview selection clicks. These are rendering and single-field assignments.
- `cn` in `src/lib/utils.ts` wraps external class-name libraries and is left out.
- The e-mail action, the password-hashing wrappers, the other pages and the other components are presentation code or foreign calls. They are not part of this model.
- The Prisma schema is not part of this model. `links.actions.ts` writes neither `createdAt` nor `updatedAt`, so their values come from the schema's defaults. The model assumes those defaults:
  - `createdAt` and `updatedAt` are set to the supplied `now` on create;
  - `updatedAt` is set to the supplied `now` on update.

=== FILE: admin_gate.dfy ===
/**
 The session check of `LinksUpdateServerWrapper` in
 `src/components/LinksUpdateServerWrapper.tsx`, which guards the admin link
 page: no session goes to the login page, a non-admin goes home, an admin
 gets the page.
 */
module AdminGate {
  import opened Common
  import opened Model
  import LinkActions

  const LoginPath := "/auth/login"
  const HomePath := "/"

  datatype PageOutcome = Redirect(path: string) | Render(user: SessionUser)

  function AdminPageGate(session: Session): (r: PageOutcome)
    ensures r == Redirect(LoginPath) <==> session.None?
    ensures r == Redirect(HomePath) <==> session.Some? && !IsAdmin(session.value)
    ensures r.Render? <==> session.Some? && IsAdmin(session.value)
    ensures r.Render? ==> r.user == session.value
  {
    match session
    case None => Redirect(LoginPath)
    case Some(user) => if user.role != ADMIN then Redirect(HomePath) else Render(user)
  }

  /** The page and the admin listing action apply the same rule: the page
      renders exactly for the sessions the listing answers. */
  lemma GateAgreesWithAdminListing(session: Session, db: Db)
    requires OwnersKnown(db)
    ensures AdminPageGate(session).Render?
        <==> LinkActions.GetAllLinksAdmin(session, db, false).response.Ok?
  {
  }
}

=== FILE: client_page.dfy ===
/**
 The form logic of `LinksUpdateClientPage` in
 `src/components/LinksUpdateClientPage.tsx`: the page state and the four
 handlers that drive the client link store. `alert(...)` followed by
 `return` leaves the state as it was; the answer of `confirm(...)` is an
 input.
 */
module ClientPage {
  import opened Common
  import opened ClientStore

  datatype FormData = FormData(title: string, url: string, description: string)

  const EmptyForm := FormData("", "", "")

  /** The page's React state together with the store it edits. */
  datatype PageState = PageState(
    links: seq<ClientLink>,
    form: FormData,
    editingId: Option<string>,
    showForm: bool,
    selectedPreview: Option<string>)

  /** JavaScript truthiness of `editingId`: null and "" are both false. */
  predicate Editing(st: PageState) {
    st.editingId.Some? && st.editingId.value != ""
  }

  /** `handleSubmit`. The clock readings the store takes are parameters:
      `updateReads` holds one per stored record for `updateLink`, and
      `createdAt` and `updatedAt` are the two readings of `addLink`. */
  function Submit(st: PageState, validUrl: string -> bool, freshId: string,
                  updateReads: seq<int>, createdAt: int, updatedAt: int): (r: PageState)
    requires |updateReads| == |st.links|
    ensures st.form.title == "" || st.form.url == "" ==> r == st
    ensures !validUrl(st.form.url) ==> r == st
    ensures st.form.title != "" && st.form.url != "" && validUrl(st.form.url) ==>
      && r.form == EmptyForm && !r.showForm
      && r.selectedPreview == st.selectedPreview
      && (Editing(st) ==>
            && r.links == UpdateLink(st.links, st.editingId.value, updateReads,
                                     st.form.title, st.form.url, Some(st.form.description))
            && r.editingId.None?)
      && (!Editing(st) ==>
            && r.links == AddLink(st.links, freshId, createdAt, updatedAt,
                                  st.form.title, st.form.url, Some(st.form.description))
            && r.editingId == st.editingId)
  {
    if st.form.title == "" || st.form.url == "" then st
    else if !validUrl(st.form.url) then st
    else
      var f := st.form;
      var st' :=
        if Editing(st) then
          st.(links := UpdateLink(st.links, st.editingId.value, updateReads, f.title, f.url, Some(f.description)),
              editingId := None)
        else
          st.(links := AddLink(st.links, freshId, createdAt, updatedAt, f.title, f.url, Some(f.description)));
      st'.(form := EmptyForm, showForm := false)
  }

  /** `handleEdit`. */
  function Edit(st: PageState, link: ClientLink): (r: PageState)
    ensures r.form == FormData(link.title, link.url, link.description.GetOr(""))
    ensures r.editingId == Some(link.id) && r.showForm
    ensures r.links == st.links && r.selectedPreview == st.selectedPreview
  {
    st.(form := FormData(link.title, link.url, link.description.GetOr("")),
        editingId := Some(link.id),
        showForm := true)
  }

  /** `handleDelete`: only a confirmed delete touches the store. */
  function Delete(st: PageState, id: string, confirmed: bool): (r: PageState)
    ensures !confirmed ==> r == st
    ensures confirmed ==>
      && r.links == DeleteLink(st.links, id)
      && r.selectedPreview == (if st.selectedPreview == Some(id) then None else st.selectedPreview)
      && r.form == st.form && r.editingId == st.editingId && r.showForm == st.showForm
  {
    if !confirmed then st
    else
      var st' := st.(links := DeleteLink(st.links, id));
      if st.selectedPreview == Some(id) then st'.(selectedPreview := None) else st'
  }

  /** `handleCancel`. */
  function Cancel(st: PageState): (r: PageState)
    ensures r.form == EmptyForm && r.editingId.None? && !r.showForm
    ensures r.links == st.links && r.selectedPreview == st.selectedPreview
  {
    st.(form := EmptyForm, editingId := None, showForm := false)
  }

  // ---------------------------------------------------------------------
  // Relations between the handlers

  /** Editing and then cancelling changes nothing but the form, which ends
      closed and empty. */
  lemma EditThenCancel(st: PageState, link: ClientLink)
    ensures Cancel(Edit(st, link)) == st.(form := EmptyForm, editingId := None, showForm := false)
  {
  }

  /** Opening a stored link for editing and submitting the form untouched
      keeps the link's title and url (an absent description comes back as
      ""), keeps its id and position, and closes the form. */
  lemma EditThenSubmitUnchanged(st: PageState, k: nat, validUrl: string -> bool, freshId: string,
                                updateReads: seq<int>, createdAt: int, updatedAt: int)
    requires k < |st.links| && |updateReads| == |st.links|
    requires st.links[k].id != "" && st.links[k].title != "" && st.links[k].url != ""
    requires validUrl(st.links[k].url)
    ensures var link := st.links[k];
      var r := Submit(Edit(st, link), validUrl, freshId, updateReads, createdAt, updatedAt);
      && Ids(r.links) == Ids(st.links)
      && r.links[k].title == link.title && r.links[k].url == link.url
      && r.links[k].description == Some(link.description.GetOr(""))
      && r.links[k].createdAt == link.createdAt && r.links[k].updatedAt == updateReads[k]
      && r.editingId.None? && !r.showForm && r.form == EmptyForm
  {
  }

  /** A confirmed delete clears the preview of the deleted link and leaves
      nothing with that id to look up. */
  lemma DeleteClearsPreview(st: PageState, id: string)
    ensures var r := Delete(st, id, true);
      r.selectedPreview != Some(id) && GetLink(r.links, id).None?
  {
    DeleteThenGet(st.links, id);
  }
}

=== FILE: client_store.dfy ===
/**
 The in-memory link list of `LinksProvider` in `src/contexts/LinksContext.tsx`:
 a client-side list, separate from the database, with add, update, delete
 and lookup. Each clock reading (`new Date()`) and the id source
 (`Date.now().toString()`) are parameters.
 */
module ClientStore {
  import opened Common

  /** The context's `Link` record. */
  datatype ClientLink = ClientLink(
    id: string,
    title: string,
    url: string,
    description: Option<string>,
    createdAt: int,
    updatedAt: int)

  function Ids(links: seq<ClientLink>): (r: seq<string>)
    ensures |r| == |links|
    ensures forall k :: 0 <= k < |links| ==> r[k] == links[k].id
  {
    seq(|links|, k requires 0 <= k < |links| => links[k].id)
  }

  /** The client record has no owner and is a different type from the
      database row, so its id predicate and its filter (`DeleteLink`) are
      stated here on `ClientLink` rather than shared with `Model.UniqueIds`
      and `Model.WithoutId`. */
  predicate DistinctIds(links: seq<ClientLink>) {
    forall i, j :: 0 <= i < |links| && 0 <= j < |links| && links[i].id == links[j].id ==> i == j
  }

  /** The three links the provider starts with. Each record reads the clock
      twice, so `clock` holds the six readings in source order: link `k` is
      created at `clock[2 * k]` and updated at `clock[2 * k + 1]`. */
  function InitialLinks(clock: seq<int>): (r: seq<ClientLink>)
    requires |clock| == 6
    ensures Ids(r) == ["1", "2", "3"]
    ensures DistinctIds(r)
    ensures forall k :: 0 <= k < |r| ==>
      r[k].createdAt == clock[2 * k] && r[k].updatedAt == clock[2 * k + 1]
  {
    [ ClientLink("1", "Google", "https://www.google.com", Some("Search engine"), clock[0], clock[1]),
      ClientLink("2", "GitHub", "https://github.com", Some("Code repository platform"), clock[2], clock[3]),
      ClientLink("3", "Next.js Documentation", "https://nextjs.org/docs",
                 Some("Official Next.js documentation"), clock[4], clock[5]) ]
  }

  /** `addLink`: append one record built from the arguments. The two clock
      readings of the record are `createdAt` and `updatedAt`; they need not
      be equal. */
  function AddLink(links: seq<ClientLink>, freshId: string, createdAt: int, updatedAt: int,
                   title: string, url: string, description: Option<string>): (r: seq<ClientLink>)
    ensures |r| == |links| + 1
    ensures r[..|links|] == links
    ensures var added := r[|links|];
      && added.id == freshId && added.title == title && added.url == url
      && added.description == description
      && added.createdAt == createdAt && added.updatedAt == updatedAt
  {
    links + [ClientLink(freshId, title, url, description, createdAt, updatedAt)]
  }

  /** `updateLink`: every record with the id gets the new title, url and
      description and a new `updatedAt`; the others are kept. The `map`
      callback reads the clock once per matching record, so `stamps[k]` is
      the reading taken at position `k` (positions with another id ignore
      theirs). */
  function UpdateLink(links: seq<ClientLink>, id: string, stamps: seq<int>,
                      title: string, url: string, description: Option<string>): (r: seq<ClientLink>)
    requires |stamps| == |links|
    ensures |r| == |links|
    ensures Ids(r) == Ids(links)
    ensures forall k :: 0 <= k < |links| && links[k].id != id ==> r[k] == links[k]
    ensures forall k :: 0 <= k < |links| && links[k].id == id ==>
      && r[k].title == title && r[k].url == url && r[k].description == description
      && r[k].createdAt == links[k].createdAt && r[k].updatedAt == stamps[k]
  {
    seq(|links|, k requires 0 <= k < |links| =>
      if links[k].id == id
      then links[k].(title := title, url := url, description := description, updatedAt := stamps[k])
      else links[k])
  }

  /** `deleteLink`: drop every record with the id. */
  function DeleteLink(links: seq<ClientLink>, id: string): (r: seq<ClientLink>)
    ensures forall l :: l in r <==> l in links && l.id != id
    ensures |r| <= |links|
  {
    if links == [] then []
    else
      assert links == [links[0]] + links[1..];
      if links[0].id == id then DeleteLink(links[1..], id)
      else [links[0]] + DeleteLink(links[1..], id)
  }

  /** `getLink`: the first record with the id, if any. */
  function GetLink(links: seq<ClientLink>, id: string): (r: Option<ClientLink>)
    ensures r.None? <==> id !in Ids(links)
    ensures r.Some? ==> exists k :: 0 <= k < |links| && links[k] == r.value && FirstWithId(links, id, k)
  {
    var k := FirstIndex(links, id);
    if k == |links| then None
    else
      assert links[k] == links[k] && FirstWithId(links, id, k);
      Some(links[k])
  }

  /** The position `Array.prototype.find` stops at: the first record with
      the id, or the length when there is none. */
  function FirstIndex(links: seq<ClientLink>, id: string): (k: nat)
    ensures k <= |links|
    ensures k < |links| ==> FirstWithId(links, id, k)
    ensures k == |links| ==> id !in Ids(links)
  {
    if links == [] then 0
    else if links[0].id == id then 0
    else
      var k := FirstIndex(links[1..], id);
      assert Ids(links) == [links[0].id] + Ids(links[1..]);
      assert forall j :: 1 <= j < |links| ==> links[j] == links[1..][j - 1];
      1 + k
  }

  /** `k` is the first position holding id `id`. */
  predicate FirstWithId(links: seq<ClientLink>, id: string, k: int) {
    0 <= k < |links| && links[k].id == id && forall j :: 0 <= j < k ==> links[j].id != id
  }

  // ---------------------------------------------------------------------
  // Relations between the operations

  /** An added record can be looked up by its id when the id was new. */
  lemma AddThenGet(links: seq<ClientLink>, freshId: string, createdAt: int, updatedAt: int,
                   title: string, url: string, description: Option<string>)
    requires freshId !in Ids(links)
    ensures GetLink(AddLink(links, freshId, createdAt, updatedAt, title, url, description), freshId)
         == Some(ClientLink(freshId, title, url, description, createdAt, updatedAt))
  {
    var r := AddLink(links, freshId, createdAt, updatedAt, title, url, description);
    assert forall k :: 0 <= k < |links| ==> r[k] == links[k] && links[k].id == Ids(links)[k];
    assert r[|links|].id == freshId;
  }

  /** When `Date.now()` repeats an existing id, lookups keep finding the older
      record: the new one is shadowed. */
  lemma AddWithTakenIdIsShadowed(links: seq<ClientLink>, freshId: string, createdAt: int, updatedAt: int,
                                 title: string, url: string, description: Option<string>)
    requires freshId in Ids(links)
    ensures GetLink(AddLink(links, freshId, createdAt, updatedAt, title, url, description), freshId)
         == GetLink(links, freshId)
  {
    var r := AddLink(links, freshId, createdAt, updatedAt, title, url, description);
    var a := GetLink(r, freshId).value;
    var b := GetLink(links, freshId).value;
    var i :| 0 <= i < |r| && r[i] == a && FirstWithId(r, freshId, i);
    var j :| 0 <= j < |links| && links[j] == b && FirstWithId(links, freshId, j);
    assert forall m :: 0 <= m < |links| ==> r[m] == links[m];
  }

  /** After `deleteLink(id)`, `getLink(id)` finds nothing. */
  lemma DeleteThenGet(links: seq<ClientLink>, id: string)
    ensures GetLink(DeleteLink(links, id), id).None?
  {
    var r := DeleteLink(links, id);
    assert forall k :: 0 <= k < |r| ==> r[k] in r;
  }

  /** Deleting an id that is not present changes nothing. */
  lemma {:induction false} DeleteAbsent(links: seq<ClientLink>, id: string)
    requires id !in Ids(links)
    ensures DeleteLink(links, id) == links
    decreases |links|
  {
    if links != [] {
      assert Ids(links) == [links[0].id] + Ids(links[1..]);
      DeleteAbsent(links[1..], id);
    }
  }

  /** Deletion works piecewise, so the survivors keep their relative order. */
  lemma {:induction false} DeleteDistributes(a: seq<ClientLink>, b: seq<ClientLink>, id: string)
    ensures DeleteLink(a + b, id) == DeleteLink(a, id) + DeleteLink(b, id)
    decreases |a|
  {
    if a == [] {
      assert a + b == b;
    } else {
      assert (a + b)[1..] == a[1..] + b;
      DeleteDistributes(a[1..], b, id);
    }
  }

  /** Updating an id that is not present changes nothing. */
  lemma UpdateAbsent(links: seq<ClientLink>, id: string, stamps: seq<int>,
                     title: string, url: string, description: Option<string>)
    requires |stamps| == |links| && id !in Ids(links)
    ensures UpdateLink(links, id, stamps, title, url, description) == links
  {
    var r := UpdateLink(links, id, stamps, title, url, description);
    forall k | 0 <= k < |links| ensures r[k] == links[k] {
      assert Ids(links)[k] == links[k].id;
    }
  }

  /** Reading back an updated id returns the new values, stamped with the
      reading taken at the first record with that id. */
  lemma UpdateThenGet(links: seq<ClientLink>, id: string, stamps: seq<int>,
                      title: string, url: string, description: Option<string>)
    requires |stamps| == |links| && id in Ids(links)
    ensures var g := GetLink(UpdateLink(links, id, stamps, title, url, description), id);
      && g.Some? && g.value.title == title && g.value.url == url
      && g.value.description == description
      && g.value.updatedAt == stamps[FirstIndex(links, id)]
  {
    var r := UpdateLink(links, id, stamps, title, url, description);
    var k := FirstIndex(links, id);
    assert Ids(r) == Ids(links);
    assert FirstWithId(r, id, k) by {
      forall j | 0 <= j < k ensures r[j].id != id {
        assert Ids(r)[j] == Ids(links)[j];
      }
    }
    var k' := FirstIndex(r, id);
    assert FirstWithId(r, id, k');
    FirstIsUnique(r, id, k, k');
  }

  lemma FirstIsUnique(links: seq<ClientLink>, id: string, a: int, b: int)
    requires FirstWithId(links, id, a) && FirstWithId(links, id, b)
    ensures a == b
  {
  }
}

=== FILE: common.dfy ===
/** Values shared by every component: optional values. */
module Common {

  /** A value that may be absent: `null` / `undefined` in the application. */
  datatype Option<+T> = None | Some(value: T) {
    function GetOr(default: T): T {
      match this
      case Some(v) => v
      case None => default
    }
  }
}

=== FILE: links_actions.dfy ===
/**
 The server actions of `src/actions/links.actions.ts`. Each action takes the
 request's session, the store and its input, and returns its response, the
 store afterwards and the paths it revalidated. Every action runs as one
 atomic step.

 - `validUrl` stands for "`new URL(s)` does not throw", the basic URL parser
   of the WHATWG URL Standard (section 4.4); it is left uninterpreted.
 - `fault` stands for "the database call throws"; the action's `catch` turns
   that into its generic error message.
 - `freshId` and `now` are the id and the timestamp the database assigns.
 */
module LinkActions {
  import opened Common
  import opened Model

  const LinksPath := "/links"
  const LinksUpdatePath := "/links-update"

  /** The routes that render link data, revalidated after every successful
      mutation. */
  const LinkRoutes: seq<string> := [LinksPath, LinksUpdatePath]

  const InvalidUrl := "Invalid URL format"
  const NotFoundOrDenied := "Link not found or access denied"
  const NotFound := "Link not found"
  const AdminRequired := "Admin access required"
  const FetchLinksFailed := "Failed to fetch links"
  const CreateFailed := "Failed to create link"
  const UpdateFailed := "Failed to update link"
  const DeleteFailed := "Failed to delete link"
  const FetchLinkFailed := "Failed to fetch link"

  /** The `{ title, url, description? }` payload of create and update. */
  datatype LinkInput = LinkInput(title: string, url: string, description: Option<string>)

  /** A row of the admin listing: the link with its owner's name and e-mail. */
  datatype AdminLink = AdminLink(link: Link, userName: string, userEmail: string)

  /** `data.description || null`: an absent or empty description is stored
      as null. */
  function StoredDescription(d: Option<string>): (r: Option<string>)
    ensures r.None? <==> d.None? || d.value == []
    ensures r.Some? ==> r == d
  {
    match d
    case Some(s) => if s == [] then None else d
    case None => None
  }

  /** A failed action: the error, the store untouched, nothing revalidated. */
  function Fail<T>(db: Db, error: string): (o: Outcome<T>)
  {
    Outcome(Err(error), db, [])
  }

  // ---------------------------------------------------------------------
  // getLinksAction

  function GetLinks(session: Session, db: Db, fault: bool): (o: Outcome<seq<Link>>)
    ensures o.db == db && o.revalidated == []
    ensures session.None? ==> o.response == Err(NotAuthenticated)
    ensures session.Some? && fault ==> o.response == Err(FetchLinksFailed)
    ensures o.response.Ok? <==> session.Some? && !fault
    ensures o.response.Ok? ==>
      && NewestFirst(o.response.payload)
      && multiset(o.response.payload) == multiset(OwnedBy(db.links, session.value.id))
  {
    match session
    case None => Fail(db, NotAuthenticated)
    case Some(user) =>
      if fault then Fail(db, FetchLinksFailed)
      else Outcome(Ok(SortNewestFirst(OwnedBy(db.links, user.id))), db, [])
  }

  /** The listing holds exactly the caller's links. */
  lemma GetLinksExactlyOwn(session: Session, db: Db, l: Link)
    requires session.Some?
    ensures var o := GetLinks(session, db, false);
      o.response.Ok? && (l in o.response.payload <==> l in db.links && l.userId == session.value.id)
  {
    var o := GetLinks(session, db, false);
    assert l in o.response.payload <==> l in multiset(o.response.payload);
  }

  // ---------------------------------------------------------------------
  // createLinkAction

  function CreateLink(session: Session, db: Db, input: LinkInput, validUrl: string -> bool,
                      freshId: string, now: int, fault: bool): (o: Outcome<Link>)
    ensures session.None? ==> o == Fail(db, NotAuthenticated)
    ensures session.Some? && !validUrl(input.url) ==> o == Fail(db, InvalidUrl)
    ensures o.response.Ok? <==>
      && session.Some? && validUrl(input.url) && !fault
      && session.value.id in db.users && FindById(db.links, freshId).None?
    ensures o.response.Err? ==> o.db == db && o.revalidated == []
    ensures o.response.Ok? ==>
      var l := o.response.payload;
      && o.db.links == db.links + [l]
      && o.db.users == db.users
      && l.id == freshId && l.userId == session.value.id
      && l.title == input.title && l.url == input.url
      && l.description == StoredDescription(input.description)
      && l.createdAt == now && l.updatedAt == now
      && o.revalidated == LinkRoutes
  {
    match session
    case None => Fail(db, NotAuthenticated)
    case Some(user) =>
      if !validUrl(input.url) then Fail(db, InvalidUrl)
      // the insert throws on a database error, a missing owner (foreign
      // key) or a taken id (primary key)
      else if fault || user.id !in db.users || FindById(db.links, freshId).Some? then
        Fail(db, CreateFailed)
      else
        var l := Link(freshId, input.title, input.url, StoredDescription(input.description),
                      now, now, user.id);
        Outcome(Ok(l), Db(db.links + [l], db.users), LinkRoutes)
  }

  lemma CreatePreservesValid(session: Session, db: Db, input: LinkInput, validUrl: string -> bool,
                             freshId: string, now: int, fault: bool)
    requires Valid(db)
    ensures Valid(CreateLink(session, db, input, validUrl, freshId, now, fault).db)
  {
    var o := CreateLink(session, db, input, validUrl, freshId, now, fault);
    if o.response.Ok? {
      var links := o.db.links;
      assert forall i :: 0 <= i < |db.links| ==> links[i] == db.links[i] && db.links[i].id != freshId;
      assert links[|db.links|].id == freshId;
    }
  }

  /** A created link shows up in its creator's listing and in nobody else's. */
  lemma CreateThenList(session: Session, db: Db, input: LinkInput, validUrl: string -> bool,
                       freshId: string, now: int, other: SessionUser)
    requires session.Some? && other.id != session.value.id
    requires CreateLink(session, db, input, validUrl, freshId, now, false).response.Ok?
    ensures var o := CreateLink(session, db, input, validUrl, freshId, now, false);
      && o.response.payload in GetLinks(session, o.db, false).response.payload
      && o.response.payload !in GetLinks(Some(other), o.db, false).response.payload
      && GetLinks(Some(other), o.db, false).response.payload
         == GetLinks(Some(other), db, false).response.payload
  {
    var o := CreateLink(session, db, input, validUrl, freshId, now, false);
    var l := o.response.payload;
    GetLinksExactlyOwn(session, o.db, l);
    GetLinksExactlyOwn(Some(other), o.db, l);
    ForeignAppendKeepsListing(db, o.db, l, other);
  }

  /** Appending a row owned by someone else leaves a user's listing as it was. */
  lemma ForeignAppendKeepsListing(db: Db, db': Db, l: Link, other: SessionUser)
    requires db'.links == db.links + [l] && l.userId != other.id
    ensures GetLinks(Some(other), db', false).response.payload
         == GetLinks(Some(other), db, false).response.payload
  {
    OwnedByAppend(db.links, [l], other.id);
    assert OwnedBy([l], other.id) == [];
    assert OwnedBy(db'.links, other.id) == OwnedBy(db.links, other.id);
  }

  // ---------------------------------------------------------------------
  // updateLinkAction

  function UpdateLink(session: Session, db: Db, id: string, input: LinkInput,
                      validUrl: string -> bool, now: int, fault: bool): (o: Outcome<Link>)
    ensures session.None? ==> o == Fail(db, NotAuthenticated)
    ensures session.Some? && !validUrl(input.url) ==> o == Fail(db, InvalidUrl)
    ensures session.Some? && validUrl(input.url) && fault ==> o == Fail(db, UpdateFailed)
    ensures session.Some? && validUrl(input.url) && !fault
            && FindOwned(db.links, id, session.value.id).None? ==>
      o == Fail(db, NotFoundOrDenied)
    ensures o.response.Ok? <==>
      session.Some? && validUrl(input.url) && !fault && FindOwned(db.links, id, session.value.id).Some?
    ensures o.response.Err? ==> o.db == db && o.revalidated == []
    ensures o.response.Ok? ==>
      && o.db.users == db.users
      && |o.db.links| == |db.links|
      && (forall i :: 0 <= i < |db.links| && db.links[i].id != id ==> o.db.links[i] == db.links[i])
      && (forall i :: 0 <= i < |db.links| && db.links[i].id == id ==>
            var before, after := db.links[i], o.db.links[i];
            && after.id == before.id && after.userId == before.userId
            && after.createdAt == before.createdAt
            && after.title == input.title && after.url == input.url
            && after.description == StoredDescription(input.description)
            && after.updatedAt == now)
      && o.response.payload
         == Edit(FindOwned(db.links, id, session.value.id).value, input, now)
      && o.revalidated == LinkRoutes
  {
    match session
    case None => Fail(db, NotAuthenticated)
    case Some(user) =>
      if !validUrl(input.url) then Fail(db, InvalidUrl)
      else if fault then Fail(db, UpdateFailed)
      else
        match FindOwned(db.links, id, user.id)
        case None => Fail(db, NotFoundOrDenied)
        case Some(existing) =>
          var links := seq(|db.links|, i requires 0 <= i < |db.links| =>
            if db.links[i].id == id then Edit(db.links[i], input, now) else db.links[i]);
          Outcome(Ok(Edit(existing, input, now)), Db(links, db.users), LinkRoutes)
  }

  /** The row written by `prisma.link.update`: new title, url and
      description, a new `updatedAt`, everything else kept. */
  function Edit(l: Link, input: LinkInput, now: int): (r: Link)
    ensures r.id == l.id && r.userId == l.userId && r.createdAt == l.createdAt
    ensures r.title == input.title && r.url == input.url && r.updatedAt == now
    ensures r.description.None? <==> input.description.None? || input.description.value == []
    ensures r.description.Some? ==> r.description == input.description
  {
    l.(title := input.title, url := input.url,
       description := StoredDescription(input.description), updatedAt := now)
  }

  lemma UpdatePreservesValid(session: Session, db: Db, id: string, input: LinkInput,
                             validUrl: string -> bool, now: int, fault: bool)
    requires Valid(db)
    ensures Valid(UpdateLink(session, db, id, input, validUrl, now, fault).db)
  {
    var o := UpdateLink(session, db, id, input, validUrl, now, fault);
    if o.response.Ok? {
      assert forall i :: 0 <= i < |db.links| ==> o.db.links[i].id == db.links[i].id;
      assert forall i :: 0 <= i < |db.links| ==> o.db.links[i].userId == db.links[i].userId;
    }
  }

  /** A successful update leaves every other user's links as they were. */
  lemma UpdateLeavesOthersAlone(session: Session, db: Db, id: string, input: LinkInput,
                                validUrl: string -> bool, now: int, uid: string)
    requires UniqueIds(db.links)
    requires UpdateLink(session, db, id, input, validUrl, now, false).response.Ok?
    requires uid != session.value.id
    ensures OwnedBy(UpdateLink(session, db, id, input, validUrl, now, false).db.links, uid)
         == OwnedBy(db.links, uid)
  {
    var o := UpdateLink(session, db, id, input, validUrl, now, false);
    var target := FindOwned(db.links, id, session.value.id).value;
    forall k | 0 <= k < |db.links| && db.links[k].userId == uid
      ensures db.links[k] == o.db.links[k]
    {
      var j :| 0 <= j < |db.links| && db.links[j] == target;
      assert db.links[k].id != id;
    }
    OwnedByFrame(db.links, o.db.links, uid);
  }

  /** Reading the link back after a successful update returns the edited row. */
  lemma UpdateThenGet(session: Session, db: Db, id: string, input: LinkInput,
                      validUrl: string -> bool, now: int)
    requires UniqueIds(db.links)
    requires UpdateLink(session, db, id, input, validUrl, now, false).response.Ok?
    ensures var o := UpdateLink(session, db, id, input, validUrl, now, false);
      GetLink(session, o.db, id, false).response == o.response
  {
    var o := UpdateLink(session, db, id, input, validUrl, now, false);
    var target := FindOwned(db.links, id, session.value.id).value;
    var j :| 0 <= j < |db.links| && db.links[j] == target;
    var found := FindOwned(o.db.links, id, session.value.id);
    assert o.db.links[j] == Edit(target, input, now);
    assert found.Some?;
    var m :| 0 <= m < |o.db.links| && o.db.links[m] == found.value;
    assert o.db.links[m].id == db.links[m].id == id;
    assert m == j;
  }

  // ---------------------------------------------------------------------
  // deleteLinkAction

  function DeleteLink(session: Session, db: Db, id: string, fault: bool): (o: Outcome<()>)
    ensures session.None? ==> o == Fail(db, NotAuthenticated)
    ensures session.Some? && fault ==> o == Fail(db, DeleteFailed)
    ensures session.Some? && !fault && FindOwned(db.links, id, session.value.id).None? ==>
      o == Fail(db, NotFoundOrDenied)
    ensures o.response.Ok? <==>
      session.Some? && !fault && FindOwned(db.links, id, session.value.id).Some?
    ensures o.response.Err? ==> o.db == db && o.revalidated == []
    ensures o.response.Ok? ==>
      && o.db.users == db.users
      && (forall l :: l in o.db.links <==> l in db.links && l.id != id)
      && o.revalidated == LinkRoutes
  {
    match session
    case None => Fail(db, NotAuthenticated)
    case Some(user) =>
      if fault then Fail(db, DeleteFailed)
      else
        match FindOwned(db.links, id, user.id)
        case None => Fail(db, NotFoundOrDenied)
        case Some(_) => Outcome(Ok(()), Db(WithoutId(db.links, id), db.users), LinkRoutes)
  }

  /** With unique ids a successful delete removes exactly the caller's row
      with that id; `DeleteKeepsOrder` shows that the others keep their order. */
  lemma DeleteRemovesExactlyOne(session: Session, db: Db, id: string)
    requires UniqueIds(db.links)
    requires DeleteLink(session, db, id, false).response.Ok?
    ensures var o := DeleteLink(session, db, id, false);
      var gone := FindOwned(db.links, id, session.value.id).value;
      && gone.userId == session.value.id
      && multiset(o.db.links) + multiset{gone} == multiset(db.links)
      && |o.db.links| == |db.links| - 1
  {
    var gone := FindOwned(db.links, id, session.value.id).value;
    var i :| 0 <= i < |db.links| && db.links[i] == gone;
    WithoutIdRemovesOne(db.links, i);
  }

  /** A successful delete keeps the other rows in their order: row `i`,
      the one with the id, is cut out and nothing else moves. */
  lemma DeleteKeepsOrder(session: Session, db: Db, id: string, i: nat)
    requires UniqueIds(db.links) && i < |db.links| && db.links[i].id == id
    requires DeleteLink(session, db, id, false).response.Ok?
    ensures DeleteLink(session, db, id, false).db.links == db.links[..i] + db.links[i + 1..]
  {
    WithoutIdAt(db.links, i);
  }

  lemma DeletePreservesValid(session: Session, db: Db, id: string, fault: bool)
    requires Valid(db)
    ensures Valid(DeleteLink(session, db, id, fault).db)
  {
    var o := DeleteLink(session, db, id, fault);
    if o.response.Ok? {
      WithoutIdUnique(db.links, id);
    }
  }

  /** After a successful delete the link can no longer be read. */
  lemma DeleteThenGet(session: Session, db: Db, id: string)
    requires DeleteLink(session, db, id, false).response.Ok?
    ensures GetLink(session, DeleteLink(session, db, id, false).db, id, false).response == Err(NotFound)
  {
  }

  /** Deleting another user's link fails with the collapsed error and the
      link is still there. */
  lemma DeleteForeignLinkFails(session: Session, db: Db, l: Link)
    requires UniqueIds(db.links)
    requires session.Some? && l in db.links && l.userId != session.value.id
    ensures var o := DeleteLink(session, db, l.id, false);
      o.response == Err(NotFoundOrDenied) && l in o.db.links
  {
    var k :| 0 <= k < |db.links| && db.links[k] == l;
    assert FindOwned(db.links, l.id, session.value.id).None?;
  }

  // ---------------------------------------------------------------------
  // getLinkAction

  function GetLink(session: Session, db: Db, id: string, fault: bool): (o: Outcome<Link>)
    ensures o.db == db && o.revalidated == []
    ensures session.None? ==> o.response == Err(NotAuthenticated)
    ensures session.Some? && fault ==> o.response == Err(FetchLinkFailed)
    ensures session.Some? && !fault && FindOwned(db.links, id, session.value.id).None? ==>
      o.response == Err(NotFound)
    ensures o.response.Ok? <==>
      session.Some? && !fault && FindOwned(db.links, id, session.value.id).Some?
    ensures o.response.Ok? ==>
      var l := o.response.payload;
      l in db.links && l.id == id && l.userId == session.value.id
  {
    match session
    case None => Fail(db, NotAuthenticated)
    case Some(user) =>
      if fault then Fail(db, FetchLinkFailed)
      else
        match FindOwned(db.links, id, user.id)
        case None => Fail(db, NotFound)
        case Some(l) => Outcome(Ok(l), db, [])
  }

  // ---------------------------------------------------------------------
  // The owner-scoped actions reveal nothing beyond the caller's own links

  /** Update's answer depends on the store only through the caller's own
      links: a missing id and another user's id are indistinguishable. */
  lemma UpdateSeesOnlyOwnLinks(session: Session, db1: Db, db2: Db, id: string, input: LinkInput,
                               validUrl: string -> bool, now: int, fault: bool)
    requires session.Some? ==> OwnedBy(db1.links, session.value.id) == OwnedBy(db2.links, session.value.id)
    ensures UpdateLink(session, db1, id, input, validUrl, now, fault).response
         == UpdateLink(session, db2, id, input, validUrl, now, fault).response
    ensures UpdateLink(session, db1, id, input, validUrl, now, fault).revalidated
         == UpdateLink(session, db2, id, input, validUrl, now, fault).revalidated
  {
    if session.Some? {
      FindOwnedIsLookupAmongOwn(db1.links, id, session.value.id);
      FindOwnedIsLookupAmongOwn(db2.links, id, session.value.id);
    }
  }

  lemma DeleteSeesOnlyOwnLinks(session: Session, db1: Db, db2: Db, id: string, fault: bool)
    requires session.Some? ==> OwnedBy(db1.links, session.value.id) == OwnedBy(db2.links, session.value.id)
    ensures DeleteLink(session, db1, id, fault).response == DeleteLink(session, db2, id, fault).response
    ensures DeleteLink(session, db1, id, fault).revalidated == DeleteLink(session, db2, id, fault).revalidated
  {
    if session.Some? {
      FindOwnedIsLookupAmongOwn(db1.links, id, session.value.id);
      FindOwnedIsLookupAmongOwn(db2.links, id, session.value.id);
    }
  }

  lemma GetLinkSeesOnlyOwnLinks(session: Session, db1: Db, db2: Db, id: string, fault: bool)
    requires session.Some? ==> OwnedBy(db1.links, session.value.id) == OwnedBy(db2.links, session.value.id)
    ensures GetLink(session, db1, id, fault).response == GetLink(session, db2, id, fault).response
  {
    if session.Some? {
      FindOwnedIsLookupAmongOwn(db1.links, id, session.value.id);
      FindOwnedIsLookupAmongOwn(db2.links, id, session.value.id);
    }
  }

  /** Adding another user's link with the requested id does not change what
      update or delete answer: "missing" and "not yours" look the same. */
  lemma MissingAndForeignLookAlike(session: Session, db: Db, foreign: Link, input: LinkInput,
                                   validUrl: string -> bool, now: int, fault: bool)
    requires session.Some? && foreign.userId != session.value.id
    ensures var withForeign := db.(links := db.links + [foreign]);
      && UpdateLink(session, db, foreign.id, input, validUrl, now, fault).response
         == UpdateLink(session, withForeign, foreign.id, input, validUrl, now, fault).response
      && DeleteLink(session, db, foreign.id, fault).response
         == DeleteLink(session, withForeign, foreign.id, fault).response
  {
    var withForeign := db.(links := db.links + [foreign]);
    OwnedByAppend(db.links, [foreign], session.value.id);
    assert OwnedBy([foreign], session.value.id) == [];
    assert db.links + [] == db.links;
    UpdateSeesOnlyOwnLinks(session, db, withForeign, foreign.id, input, validUrl, now, fault);
    DeleteSeesOnlyOwnLinks(session, db, withForeign, foreign.id, fault);
  }

  // ---------------------------------------------------------------------
  // getAllLinksAdminAction

  function LinksOf(rows: seq<AdminLink>): (r: seq<Link>)
    ensures |r| == |rows|
    ensures forall k :: 0 <= k < |rows| ==> r[k] == rows[k].link
  {
    seq(|rows|, k requires 0 <= k < |rows| => rows[k].link)
  }

  function GetAllLinksAdmin(session: Session, db: Db, fault: bool): (o: Outcome<seq<AdminLink>>)
    requires OwnersKnown(db)
    ensures o.db == db && o.revalidated == []
    ensures session.None? || !IsAdmin(session.value) ==> o.response == Err(AdminRequired)
    ensures session.Some? && IsAdmin(session.value) && fault ==> o.response == Err(FetchLinksFailed)
    ensures o.response.Ok? <==> session.Some? && IsAdmin(session.value) && !fault
    ensures o.response.Ok? ==>
      var rows := o.response.payload;
      && NewestFirst(LinksOf(rows))
      && multiset(LinksOf(rows)) == multiset(db.links)
      && (forall k :: 0 <= k < |rows| ==>
            && rows[k].link.userId in db.users
            && rows[k].userName == db.users[rows[k].link.userId].name
            && rows[k].userEmail == db.users[rows[k].link.userId].email)
  {
    if session.None? || !IsAdmin(session.value) then Fail(db, AdminRequired)
    else if fault then Fail(db, FetchLinksFailed)
    else
      var sorted := SortNewestFirst(db.links);
      assert forall k :: 0 <= k < |sorted| ==> sorted[k] in multiset(db.links);
      var rows := seq(|sorted|, k requires 0 <= k < |sorted| =>
        AdminLink(sorted[k], db.users[sorted[k].userId].name, db.users[sorted[k].userId].email));
      assert LinksOf(rows) == sorted;
      Outcome(Ok(rows), db, [])
  }
}

=== FILE: model.dfy ===
/**
 The server-side data the actions work on: users with roles, the session the
 authentication provider hands to each request, link rows, and the
 relational store holding both. Timestamps are plain integers (instants on
 one clock) supplied by the caller.
 */
module Model {
  import opened Common

  /** The user roles known to the application. */
  datatype Role = USER | ADMIN | FIRSTC | SECONDC

  /** The `user` object of an authenticated session. */
  datatype SessionUser = SessionUser(id: string, name: string, email: string, role: Role)

  /** `session?.user`: absent when the request is not authenticated. */
  type Session = Option<SessionUser>

  /** A row of the `User` table, restricted to the columns the actions read. */
  datatype UserRecord = UserRecord(id: string, name: string, email: string, role: Role)

  /** A row of the `Link` table (`LinkData`). */
  datatype Link = Link(
    id: string,
    title: string,
    url: string,
    description: Option<string>,
    createdAt: int,
    updatedAt: int,
    userId: string)

  /** The relational store: the link rows (in storage order) and the users by id. */
  datatype Db = Db(links: seq<Link>, users: map<string, UserRecord>)

  /** The `{ success, error?, payload? }` objects the actions return. */
  datatype Response<+T> = Ok(payload: T) | Err(error: string)

  /** The error every action answers when there is no session. */
  const NotAuthenticated := "Not authenticated"

  /** What one action does: its response, the store afterwards, and the
      paths it asked the page cache to revalidate, in order. */
  datatype Outcome<+T> = Outcome(response: Response<T>, db: Db, revalidated: seq<string>)

  /** No link id occurs twice (the primary key). */
  predicate UniqueIds(links: seq<Link>) {
    forall i, j :: 0 <= i < |links| && 0 <= j < |links| && links[i].id == links[j].id ==> i == j
  }

  /** The integrity constraints the database enforces: unique link ids, every
      link's owner exists, and users are stored under their own id. */
  predicate Valid(db: Db) {
    && UniqueIds(db.links)
    && OwnersKnown(db)
    && (forall u :: u in db.users ==> db.users[u].id == u)
  }

  /** The foreign key from a link to its owner. */
  predicate OwnersKnown(db: Db) {
    forall i :: 0 <= i < |db.links| ==> db.links[i].userId in db.users
  }

  predicate IsAdmin(u: SessionUser) {
    u.role == ADMIN
  }

  /** The links owned by `uid`, in storage order. */
  function OwnedBy(links: seq<Link>, uid: string): (r: seq<Link>)
    ensures forall l :: l in r <==> l in links && l.userId == uid
    ensures multiset(r) <= multiset(links)
  {
    if links == [] then []
    else
      assert links == [links[0]] + links[1..];
      if links[0].userId == uid then [links[0]] + OwnedBy(links[1..], uid)
      else OwnedBy(links[1..], uid)
  }

  lemma {:induction false} OwnedByAppend(a: seq<Link>, b: seq<Link>, uid: string)
    ensures OwnedBy(a + b, uid) == OwnedBy(a, uid) + OwnedBy(b, uid)
    decreases |a|
  {
    if a == [] {
      assert a + b == b;
    } else {
      var ab := a + b;
      assert ab[0] == a[0] && ab[1..] == a[1..] + b;
      OwnedByAppend(a[1..], b, uid);
      if a[0].userId == uid {
        calc {
          OwnedBy(ab, uid);
          [a[0]] + OwnedBy(a[1..] + b, uid);
          [a[0]] + (OwnedBy(a[1..], uid) + OwnedBy(b, uid));
          ([a[0]] + OwnedBy(a[1..], uid)) + OwnedBy(b, uid);
        }
      }
    }
  }

  /** The links whose id is not `id`, in storage order. */
  function WithoutId(links: seq<Link>, id: string): (r: seq<Link>)
    ensures forall l :: l in r <==> l in links && l.id != id
  {
    if links == [] then []
    else
      assert links == [links[0]] + links[1..];
      if links[0].id != id then [links[0]] + WithoutId(links[1..], id)
      else WithoutId(links[1..], id)
  }

  lemma {:induction false} WithoutIdAppend(a: seq<Link>, b: seq<Link>, id: string)
    ensures WithoutId(a + b, id) == WithoutId(a, id) + WithoutId(b, id)
    decreases |a|
  {
    if a == [] {
      assert a + b == b;
    } else {
      var ab := a + b;
      assert ab[0] == a[0] && ab[1..] == a[1..] + b;
      WithoutIdAppend(a[1..], b, id);
      if a[0].id != id {
        calc {
          WithoutId(ab, id);
          [a[0]] + WithoutId(a[1..] + b, id);
          [a[0]] + (WithoutId(a[1..], id) + WithoutId(b, id));
          ([a[0]] + WithoutId(a[1..], id)) + WithoutId(b, id);
        }
      }
    }
  }

  /** With unique ids, removing the id of row `i` leaves the rows before it
      and the rows after it, in their order. */
  lemma WithoutIdAt(links: seq<Link>, i: nat)
    requires UniqueIds(links) && i < |links|
    ensures WithoutId(links, links[i].id) == links[..i] + links[i + 1..]
  {
    var id := links[i].id;
    OthersHaveOtherIds(links, i, links[..i], links[i + 1..]);
    WithoutIdAbsent(links[..i], id);
    WithoutIdAbsent(links[i + 1..], id);
    WithoutIdAround(links, i);
  }

  lemma OthersHaveOtherIds(links: seq<Link>, i: nat, before: seq<Link>, after: seq<Link>)
    requires UniqueIds(links) && i < |links|
    requires before == links[..i] && after == links[i + 1..]
    ensures forall k :: 0 <= k < |before| ==> before[k].id != links[i].id
    ensures forall k :: 0 <= k < |after| ==> after[k].id != links[i].id
  {
    forall k | 0 <= k < |after| ensures after[k].id != links[i].id {
      assert after[k] == links[i + 1 + k];
    }
  }

  /** Row `i` is dropped and the rows on either side are filtered on their own. */
  lemma WithoutIdAround(links: seq<Link>, i: nat)
    requires i < |links|
    ensures WithoutId(links, links[i].id)
         == WithoutId(links[..i], links[i].id) + WithoutId(links[i + 1..], links[i].id)
  {
    var id := links[i].id;
    var before, after := links[..i], links[i + 1..];
    var rest := [links[i]] + after;
    CutAt(links, i);
    WithoutIdAppend(before, rest, id);
    assert rest[0] == links[i] && rest[1..] == after;
    assert WithoutId(rest, id) == WithoutId(after, id);
  }

  lemma CutAt(links: seq<Link>, i: nat)
    requires i < |links|
    ensures links == links[..i] + ([links[i]] + links[i + 1..])
  {
  }

  /** With unique ids, removing an id that occurs removes exactly that one row. */
  lemma {:induction false} WithoutIdRemovesOne(links: seq<Link>, i: nat)
    requires UniqueIds(links) && i < |links|
    ensures multiset(WithoutId(links, links[i].id)) + multiset{links[i]} == multiset(links)
    ensures |WithoutId(links, links[i].id)| == |links| - 1
    decreases |links|
  {
    UniqueIdsTail(links);
    if i == 0 {
      WithoutIdAbsent(links[1..], links[0].id);
      assert links == [links[0]] + links[1..];
    } else {
      assert links[i] == links[1..][i - 1];
      WithoutIdRemovesOne(links[1..], i - 1);
      WithoutIdRemovesLater(links, i);
    }
  }

  /** The step of `WithoutIdRemovesOne` for a row after the first. */
  lemma WithoutIdRemovesLater(links: seq<Link>, i: nat)
    requires 0 < i < |links| && links[0].id != links[i].id
    requires var tail := links[1..];
      && multiset(WithoutId(tail, links[i].id)) + multiset{links[i]} == multiset(tail)
      && |WithoutId(tail, links[i].id)| == |tail| - 1
    ensures multiset(WithoutId(links, links[i].id)) + multiset{links[i]} == multiset(links)
    ensures |WithoutId(links, links[i].id)| == |links| - 1
  {
    var id, tail := links[i].id, links[1..];
    var w := WithoutId(tail, id);
    assert WithoutId(links, id) == [links[0]] + w;
    assert links == [links[0]] + tail;
    ConsKeepsRemoval(links[0], w, tail, links[i]);
  }

  lemma ConsKeepsRemoval(x: Link, w: seq<Link>, t: seq<Link>, y: Link)
    requires multiset(w) + multiset{y} == multiset(t)
    ensures multiset([x] + w) + multiset{y} == multiset([x] + t)
  {
  }

  lemma UniqueIdsCons(x: Link, t: seq<Link>)
    requires UniqueIds(t)
    requires forall k :: 0 <= k < |t| ==> t[k].id != x.id
    ensures UniqueIds([x] + t)
  {
    var s := [x] + t;
    forall i, j | 0 <= i < |s| && 0 <= j < |s| && s[i].id == s[j].id
      ensures i == j
    {
      if i > 0 && j > 0 {
        assert t[i - 1].id == t[j - 1].id;
      }
    }
  }

  lemma UniqueIdsTail(links: seq<Link>)
    requires UniqueIds(links) && links != []
    ensures UniqueIds(links[1..])
    ensures forall k :: 0 <= k < |links| - 1 ==> links[1..][k].id != links[0].id
  {
    forall a, b | 0 <= a < |links| - 1 && 0 <= b < |links| - 1 && links[1..][a].id == links[1..][b].id
      ensures a == b
    {
      assert links[a + 1].id == links[b + 1].id;
    }
  }

  /** Removing rows keeps the ids unique. */
  lemma {:induction false} WithoutIdUnique(links: seq<Link>, id: string)
    requires UniqueIds(links)
    ensures UniqueIds(WithoutId(links, id))
    decreases |links|
  {
    if links != [] {
      UniqueIdsTail(links);
      var tail := WithoutId(links[1..], id);
      WithoutIdUnique(links[1..], id);
      if links[0].id != id {
        forall k | 0 <= k < |tail| ensures tail[k].id != links[0].id {
          assert tail[k] in links[1..];
        }
        UniqueIdsCons(links[0], tail);
      }
    }
  }

  lemma {:induction false} WithoutIdAbsent(links: seq<Link>, id: string)
    requires forall k :: 0 <= k < |links| ==> links[k].id != id
    ensures WithoutId(links, id) == links
    decreases |links|
  {
    if links != [] {
      var tail := links[1..];
      assert links[0].id != id;
      assert forall k :: 0 <= k < |tail| ==> tail[k].id != id by {
        forall k | 0 <= k < |tail| ensures tail[k].id != id {
          assert tail[k] == links[k + 1];
        }
      }
      WithoutIdAbsent(tail, id);
      calc {
        WithoutId(links, id);
        [links[0]] + WithoutId(tail, id);
        [links[0]] + tail;
        links;
      }
    }
  }

  /** Two stores whose rows pair up with the same owners, and that agree on
      every row of `uid`, hold the same links of `uid`. */
  lemma {:induction false} OwnedByFrame(a: seq<Link>, b: seq<Link>, uid: string)
    requires |a| == |b|
    requires forall k :: 0 <= k < |a| ==> a[k].userId == b[k].userId
    requires forall k :: 0 <= k < |a| && a[k].userId == uid ==> a[k] == b[k]
    ensures OwnedBy(a, uid) == OwnedBy(b, uid)
    decreases |a|
  {
    if a != [] {
      OwnedByFrame(a[1..], b[1..], uid);
    }
  }

  /** The first link with id `id` owned by `uid`: Prisma's
      `findFirst({ where: { id, userId } })`. */
  function FindOwned(links: seq<Link>, id: string, uid: string): (r: Option<Link>)
    ensures r.Some? ==> r.value in links && r.value.id == id && r.value.userId == uid
    ensures r.None? <==> forall i :: 0 <= i < |links| ==> !(links[i].id == id && links[i].userId == uid)
  {
    if links == [] then None
    else if links[0].id == id && links[0].userId == uid then Some(links[0])
    else
      var r := FindOwned(links[1..], id, uid);
      assert forall i :: 1 <= i < |links| ==> links[i] == links[1..][i - 1];
      r
  }

  /** The first link with id `id` in storage order. */
  function FindById(links: seq<Link>, id: string): (r: Option<Link>)
    ensures r.Some? ==> r.value in links && r.value.id == id
    ensures r.None? <==> forall i :: 0 <= i < |links| ==> links[i].id != id
  {
    if links == [] then None
    else if links[0].id == id then Some(links[0])
    else
      var r := FindById(links[1..], id);
      assert forall i :: 1 <= i < |links| ==> links[i] == links[1..][i - 1];
      r
  }

  /** The combined existence-and-ownership query sees only the caller's own
      links: it is a lookup by id among them. */
  lemma {:induction false} FindOwnedIsLookupAmongOwn(links: seq<Link>, id: string, uid: string)
    ensures FindOwned(links, id, uid) == FindById(OwnedBy(links, uid), id)
    decreases |links|
  {
    if links != [] {
      FindOwnedIsLookupAmongOwn(links[1..], id, uid);
    }
  }

  // ---------------------------------------------------------------------
  // `orderBy: { createdAt: "desc" }`

  predicate NewestFirst(links: seq<Link>) {
    forall i, j :: 0 <= i < j < |links| ==> links[i].createdAt >= links[j].createdAt
  }

  function Insert(x: Link, s: seq<Link>): (r: seq<Link>)
    requires NewestFirst(s)
    ensures NewestFirst(r)
    ensures multiset(r) == multiset(s) + multiset{x}
  {
    if s == [] then [x]
    else if x.createdAt >= s[0].createdAt then
      ConsNewestFirst(x, s);
      [x] + s
    else
      var rest := Insert(x, s[1..]);
      assert s == [s[0]] + s[1..];
      assert multiset(rest) == multiset(s[1..] + [x]);
      BoundedByPermutation(rest, s[1..] + [x], s[0].createdAt);
      ConsNewestFirst(s[0], rest);
      [s[0]] + rest
  }

  lemma ConsNewestFirst(y: Link, t: seq<Link>)
    requires NewestFirst(t)
    requires t == [] || y.createdAt >= t[0].createdAt
    ensures NewestFirst([y] + t)
  {
    var r := [y] + t;
    forall i, j | 0 <= i < j < |r| ensures r[i].createdAt >= r[j].createdAt {
      assert r[j] == t[j - 1];
      if i > 0 {
        assert r[i] == t[i - 1];
      }
    }
  }

  /** A bound on `createdAt` carries over to any permutation. */
  lemma BoundedByPermutation(a: seq<Link>, b: seq<Link>, c: int)
    requires multiset(a) == multiset(b)
    requires forall k :: 0 <= k < |b| ==> b[k].createdAt <= c
    ensures a == [] || a[0].createdAt <= c
  {
    if a != [] {
      assert a[0] in multiset(b);
      var j :| 0 <= j < |b| && b[j] == a[0];
    }
  }

  /** The links newest first. Rows with equal `createdAt` have no order in
      the database; this definition keeps their storage order, and every
      property stated about it holds for any tie order. */
  function SortNewestFirst(s: seq<Link>): (r: seq<Link>)
    ensures NewestFirst(r)
    ensures multiset(r) == multiset(s)
  {
    if s == [] then []
    else
      assert s == [s[0]] + s[1..];
      Insert(s[0], SortNewestFirst(s[1..]))
  }
}

=== FILE: text.dfy ===
/**
 String primitives with the semantics of the ECMAScript string methods the
 application uses: `trim`, `split(/\s+/)`, `split(",")`, `join`, and the
 ASCII part of `toUpperCase` / `toLowerCase`.
 */
module Text {

  /** ECMAScript WhiteSpace and LineTerminator code points: the set matched by
      `\s` and removed by `String.prototype.trim`. */
  predicate IsSpace(c: char) {
    || c == '\t' || c == '\n' || c == '\U{000B}' || c == '\U{000C}' || c == '\r'
    || c == ' ' || c == '\U{00A0}' || c == '\U{1680}'
    || ('\U{2000}' <= c <= '\U{200A}')
    || c == '\U{2028}' || c == '\U{2029}' || c == '\U{202F}' || c == '\U{205F}'
    || c == '\U{3000}' || c == '\U{FEFF}'
  }

  predicate Spaceless(s: string) {
    forall k :: 0 <= k < |s| ==> !IsSpace(s[k])
  }

  predicate AllSpaces(s: string) {
    forall k :: 0 <= k < |s| ==> IsSpace(s[k])
  }

  /** Neither the first nor the last character is white space. */
  predicate Trimmed(s: string) {
    s == [] || (!IsSpace(s[0]) && !IsSpace(s[|s| - 1]))
  }

  /** Removes the leading run of white space. */
  function TrimStart(s: string): (r: string)
    ensures |r| <= |s| && r == s[|s| - |r|..]
    ensures AllSpaces(s[..|s| - |r|])
    ensures r == [] || !IsSpace(r[0])
  {
    if s == [] || !IsSpace(s[0]) then s
    else
      var r := TrimStart(s[1..]);
      SpacesThenSuffix(s, r);
      r
  }

  /** The step of `TrimStart`: one more leading white-space character. */
  lemma SpacesThenSuffix(s: string, r: string)
    requires s != [] && IsSpace(s[0])
    requires |r| <= |s| - 1 && r == s[1..][|s| - 1 - |r|..] && AllSpaces(s[1..][..|s| - 1 - |r|])
    ensures r == s[|s| - |r|..] && AllSpaces(s[..|s| - |r|])
  {
    var n := |s| - |r|;
    assert s[1..][|s| - 1 - |r|..] == s[n..];
    forall k | 0 <= k < n ensures IsSpace(s[..n][k]) {
      if k > 0 {
        assert s[..n][k] == s[1..][..n - 1][k - 1];
      }
    }
  }

  /** Removes the trailing run of white space. */
  function TrimEnd(s: string): (r: string)
    ensures |r| <= |s| && r == s[..|r|]
    ensures AllSpaces(s[|r|..])
    ensures r == [] || !IsSpace(r[|r| - 1])
  {
    if s == [] || !IsSpace(s[|s| - 1]) then s
    else
      var r := TrimEnd(s[..|s| - 1]);
      PrefixThenSpaces(s, r);
      r
  }

  /** The step of `TrimEnd`: one more trailing white-space character. */
  lemma PrefixThenSpaces(s: string, r: string)
    requires s != [] && IsSpace(s[|s| - 1])
    requires |r| <= |s| - 1 && r == s[..|s| - 1][..|r|] && AllSpaces(s[..|s| - 1][|r|..])
    ensures r == s[..|r|] && AllSpaces(s[|r|..])
  {
    var m := |r|;
    assert s[..|s| - 1][..m] == s[..m];
    forall k | 0 <= k < |s| - m ensures IsSpace(s[m..][k]) {
      if m + k < |s| - 1 {
        assert s[m..][k] == s[..|s| - 1][m..][k];
      }
    }
  }

  /** `String.prototype.trim`: the slice of `s` left after cutting the
      leading and the trailing white-space runs. */
  function Trim(s: string): (r: string)
    ensures Trimmed(r)
    ensures r == [] <==> AllSpaces(s)
  {
    var t := TrimStart(s);
    var r := TrimEnd(t);
    assert r != [] ==> r[0] == t[0];
    TrimStartEmpty(s);
    TrimEndEmpty(t);
    r
  }

  /** `trim()` cuts exactly the leading and the trailing white-space runs:
      with `a` the length of the leading run, the result is `s[a..a + |r|]`
      and only white space surrounds it. */
  lemma TrimCutsEdgeRuns(s: string)
    ensures TrimmedSlice(s, |s| - |TrimStart(s)|, Trim(s))
  {
    var t := TrimStart(s);
    TrimCut(s, t, TrimEnd(t), |s| - |t|);
  }

  /** `r` is `s[a..a + |r|]` and only white space surrounds it in `s`. */
  predicate TrimmedSlice(s: string, a: nat, r: string) {
    && a + |r| <= |s| && r == s[a..a + |r|]
    && AllSpaces(s[..a]) && AllSpaces(s[a + |r|..])
  }

  /** A prefix `r` of the suffix `t == s[a..]`, with white space before `t`
      in `s` and after `r` in `t`, is the slice `s[a..a + |r|]` with white
      space on both sides. */
  lemma TrimCut(s: string, t: string, r: string, a: nat)
    requires a <= |s| && t == s[a..] && AllSpaces(s[..a])
    requires |r| <= |t| && r == t[..|r|] && AllSpaces(t[|r|..])
    ensures TrimmedSlice(s, a, r)
  {
    assert t[|r|..] == s[a + |r|..];
  }

  lemma {:induction false} TrimStartEmpty(s: string)
    ensures TrimStart(s) == [] <==> AllSpaces(s)
  {
    if s != [] && IsSpace(s[0]) {
      TrimStartEmpty(s[1..]);
      assert AllSpaces(s) <==> AllSpaces(s[1..]);
    }
  }

  lemma {:induction false} TrimEndEmpty(s: string)
    ensures TrimEnd(s) == [] <==> AllSpaces(s)
  {
    if s != [] && IsSpace(s[|s| - 1]) {
      TrimEndEmpty(s[..|s| - 1]);
      assert AllSpaces(s) <==> AllSpaces(s[..|s| - 1]);
    }
  }

  lemma TrimNoOp(s: string)
    requires Trimmed(s)
    ensures Trim(s) == s
  {
  }

  /** Index of the first white-space character, or `|s|` when there is none. */
  function FirstSpace(s: string): (i: nat)
    ensures i <= |s|
    ensures Spaceless(s[..i])
    ensures i < |s| ==> IsSpace(s[i])
  {
    if s == [] || IsSpace(s[0]) then 0 else 1 + FirstSpace(s[1..])
  }

  /** `s.split(/\s+/)`: the pieces between maximal runs of white space. A
      leading (trailing) run yields an empty first (last) piece, and the empty
      string yields one empty piece. */
  function SplitSpaces(s: string): (r: seq<string>)
    ensures |r| >= 1
    ensures forall k :: 0 <= k < |r| ==> Spaceless(r[k])
    ensures |r| == 1 <==> Spaceless(s)
    ensures |r| == 1 ==> r[0] == s
    ensures r[0] == [] <==> s == [] || IsSpace(s[0])
    ensures forall k :: 0 < k < |r| - 1 ==> r[k] != []
    decreases |s|
  {
    var i := FirstSpace(s);
    if i == |s| then [s]
    else
      var rest := SplitSpaces(TrimStart(s[i..]));
      var r := [s[..i]] + rest;
      assert forall k :: 0 < k < |r| ==> r[k] == rest[k - 1];
      r
  }

  /** The last piece of `SplitSpaces(s)` is empty exactly when `s` is empty
      or ends in white space. */
  lemma {:induction false} SplitSpacesLast(s: string)
    ensures LastPiece(SplitSpaces(s)) == [] <==> s == [] || IsSpace(s[|s| - 1])
    decreases |s|
  {
    var i := FirstSpace(s);
    if i < |s| {
      var t := s[i..];
      var u := TrimStart(t);
      var rest := SplitSpaces(u);
      SplitSpacesLast(u);
      LastAfterTrimStart(t);
      SplitSpacesLastStep(s, i, t, SplitSpaces(s), rest);
    } else if s != [] {
      assert s[..i][|s| - 1] == s[|s| - 1];
    }
  }

  function LastPiece(r: seq<string>): string
    requires r != []
  {
    r[|r| - 1]
  }

  lemma SplitSpacesLastStep(s: string, i: nat, t: string, r: seq<string>, rest: seq<string>)
    requires i < |s| && t == s[i..] && rest != [] && r == [s[..i]] + rest
    ensures LastPiece(r) == LastPiece(rest)
    ensures s != [] && t[|t| - 1] == s[|s| - 1]
  {
  }

  /** What `TrimStart` leaves of a string that starts with white space: its
      last character, or nothing when the whole string is white space. */
  lemma LastAfterTrimStart(t: string)
    requires t != []
    ensures var u := TrimStart(t);
      u == [] || IsSpace(u[|u| - 1]) <==> IsSpace(t[|t| - 1])
  {
    var u := TrimStart(t);
    if u == [] {
      assert t[..|t| - |u|][|t| - 1] == t[|t| - 1];
    } else {
      assert u[|u| - 1] == t[|t| - 1];
    }
  }

  /** The whitespace-separated tokens of `s`: its maximal runs of
      non-white-space characters, left to right. */
  function Words(s: string): (r: seq<string>)
    ensures CleanWords(r)
    decreases |s|
  {
    var t := TrimStart(s);
    if t == [] then []
    else
      var i := FirstSpace(t);
      assert i > 0;
      var rest := Words(t[i..]);
      CleanWordsCons(t[..i], rest);
      [t[..i]] + rest
  }

  lemma CleanWordsCons(w: string, ws: seq<string>)
    requires w != [] && Spaceless(w) && CleanWords(ws)
    ensures CleanWords([w] + ws)
  {
    var r := [w] + ws;
    forall k | 0 <= k < |r| ensures r[k] != [] && Spaceless(r[k]) {
      if k > 0 {
        assert r[k] == ws[k - 1];
      }
    }
  }

  /** `parts.join(sep)`. */
  function Join(parts: seq<string>, sep: string): (r: string)
  {
    if parts == [] then []
    else if |parts| == 1 then parts[0]
    else parts[0] + sep + Join(parts[1..], sep)
  }

  /** `Join` starts with the first part and ends with the last one. */
  lemma {:induction false} JoinEnds(parts: seq<string>, sep: string)
    requires parts != []
    ensures IsPrefix(parts[0], Join(parts, sep))
    ensures IsSuffix(parts[|parts| - 1], Join(parts, sep))
  {
    if |parts| > 1 {
      JoinEnds(parts[1..], sep);
      SuffixOfAppend(parts[|parts| - 1], parts[0] + sep, Join(parts[1..], sep));
    }
  }

  predicate IsPrefix(p: string, s: string) {
    |p| <= |s| && s[..|p|] == p
  }

  predicate IsSuffix(p: string, s: string) {
    |p| <= |s| && s[|s| - |p|..] == p
  }

  lemma SuffixOfAppend(p: string, a: string, b: string)
    requires IsSuffix(p, b)
    ensures IsSuffix(p, a + b)
  {
    assert (a + b)[|a + b| - |p|..] == b[|b| - |p|..];
  }

  /** Words that `Join(ws, " ")` separates cleanly: each non-empty and free of
      white space. */
  predicate CleanWords(ws: seq<string>) {
    forall k :: 0 <= k < |ws| ==> ws[k] != [] && Spaceless(ws[k])
  }

  /** Every white-space character is an ASCII space with a non-space
      character on both sides: no leading or trailing white space, and words
      separated by exactly one space. */
  predicate SingleSpaced(s: string) {
    forall i :: 0 <= i < |s| && IsSpace(s[i]) ==>
      s[i] == ' ' && 0 < i < |s| - 1 && !IsSpace(s[i - 1]) && !IsSpace(s[i + 1])
  }

  /** `s.split(sep)` for a one-character separator string. */
  function SplitOn(s: string, sep: char): (r: seq<string>)
    ensures |r| >= 1
    ensures forall k :: 0 <= k < |r| ==> sep !in r[k]
    ensures Join(r, [sep]) == s
  {
    if s == [] then [[]]
    else
      var rest := SplitOn(s[1..], sep);
      if s[0] == sep then
        assert s == [sep] + s[1..];
        [[]] + rest
      else
        var r := [[s[0]] + rest[0]] + rest[1..];
        assert r[1..] == rest[1..];
        r
  }

  /** Number of occurrences of `c` in `s`. */
  function Count(s: string, c: char): nat
  {
    if s == [] then 0 else (if s[0] == c then 1 else 0) + Count(s[1..], c)
  }

  lemma {:induction false} SplitOnLength(s: string, sep: char)
    ensures |SplitOn(s, sep)| == Count(s, sep) + 1
    decreases |s|
  {
    if s != [] {
      SplitOnLength(s[1..], sep);
    }
  }

  // ---------------------------------------------------------------------
  // ASCII case mapping

  predicate IsAsciiUpper(c: char) { 'A' <= c <= 'Z' }
  predicate IsAsciiLower(c: char) { 'a' <= c <= 'z' }

  function ToUpper(c: char): (d: char)
    ensures !IsAsciiLower(d)
    ensures IsAsciiLower(c) ==> d as int == c as int - 32
    ensures !IsAsciiLower(c) ==> d == c
  {
    if IsAsciiLower(c) then (c as int - 32) as char else c
  }

  function ToLower(c: char): (d: char)
    ensures !IsAsciiUpper(d)
    ensures IsAsciiUpper(c) ==> d as int == c as int + 32
    ensures !IsAsciiUpper(c) ==> d == c
  {
    if IsAsciiUpper(c) then (c as int + 32) as char else c
  }

  function LowerCase(s: string): (r: string)
    ensures |r| == |s|
    ensures forall k :: 0 <= k < |s| ==> r[k] == ToLower(s[k])
  {
    seq(|s|, k requires 0 <= k < |s| => ToLower(s[k]))
  }

  /** First character upper-case and every other character lower-case, as
      far as ASCII letters go. */
  predicate Capitalized(w: string) {
    w == [] || (!IsAsciiLower(w[0]) && forall k :: 1 <= k < |w| ==> !IsAsciiUpper(w[k]))
  }

  /** `word.charAt(0).toUpperCase() + word.slice(1).toLowerCase()`. */
  function Capitalize(w: string): (r: string)
    ensures |r| == |w|
    ensures forall k :: 0 <= k < |w| ==> ToLower(r[k]) == ToLower(w[k])
    ensures Capitalized(r)
    ensures Capitalized(w) ==> r == w
    ensures Spaceless(w) ==> Spaceless(r)
  {
    if w == [] then [] else [ToUpper(w[0])] + LowerCase(w[1..])
  }

  function CapitalizeAll(ws: seq<string>): (r: seq<string>)
    ensures |r| == |ws|
    ensures forall k :: 0 <= k < |ws| ==> r[k] == Capitalize(ws[k])
  {
    seq(|ws|, k requires 0 <= k < |ws| => Capitalize(ws[k]))
  }

  // ---------------------------------------------------------------------
  // Lemmas relating the splitting functions

  lemma TrimStartNoOp(s: string)
    requires s == [] || !IsSpace(s[0])
    ensures TrimStart(s) == s
  {
  }

  /** Characterisation of `FirstSpace` on a space-free prefix followed by a
      space (or by nothing). */
  lemma FirstSpaceAfterWord(w: string, t: string)
    requires Spaceless(w)
    requires t == [] || IsSpace(t[0])
    ensures FirstSpace(w + t) == |w|
  {
    var s := w + t;
    assert forall k :: 0 <= k < |w| ==> s[k] == w[k];
    assert t != [] ==> s[|w|] == t[0];
  }

  /** Leading white space does not change the tokens. */
  lemma {:induction false} WordsSkipSpace(s: string)
    requires s != [] && IsSpace(s[0])
    ensures Words(s) == Words(s[1..])
  {
  }

  /** Trailing white space does not change the tokens. */
  lemma {:induction false} WordsAppendSpaces(a: string, b: string)
    requires AllSpaces(b)
    ensures Words(a + b) == Words(a)
    decreases |a|
  {
    if a == [] {
      assert a + b == b;
    } else if IsSpace(a[0]) {
      assert (a + b)[1..] == a[1..] + b;
      WordsSkipSpace(a + b);
      WordsAppendSpaces(a[1..], b);
      WordsSkipSpace(a);
    } else {
      var i := FirstSpace(a);
      assert i > 0;
      WordsAppendSpaces(a[i..], b);
      WordsAppendSpacesStep(a, b);
    }
  }

  /** The step of `WordsAppendSpaces` when `a` starts with a word. */
  lemma WordsAppendSpacesStep(a: string, b: string)
    requires AllSpaces(b) && a != [] && !IsSpace(a[0])
    requires Words(a[FirstSpace(a)..] + b) == Words(a[FirstSpace(a)..])
    ensures Words(a + b) == Words(a)
  {
    var s := a + b;
    var i := FirstSpace(a);
    var t := a[i..] + b;
    SplitAt(a, b, i);
    assert t == [] || IsSpace(t[0]) by {
      if i < |a| {
        assert t[0] == a[i];
      }
    }
    FirstSpaceAfterWord(a[..i], t);
    WordsOfWordStart(s);
    WordsOfWordStart(a);
  }

  /** Cutting `a + b` at a position inside `a`. */
  lemma SplitAt(a: string, b: string, i: nat)
    requires i <= |a|
    ensures a[..i] + (a[i..] + b) == a + b
    ensures (a + b)[..i] == a[..i] && (a + b)[i..] == a[i..] + b
    ensures i == |a| ==> a[i..] + b == b
  {
    assert a == a[..i] + a[i..];
  }

  /** A string that starts with a word: that word, then the tokens of the rest. */
  lemma WordsOfWordStart(s: string)
    requires s != [] && !IsSpace(s[0])
    ensures Words(s) == [s[..FirstSpace(s)]] + Words(s[FirstSpace(s)..])
  {
    TrimStartNoOp(s);
  }

  lemma WordsOfTrimStart(s: string)
    ensures Words(TrimStart(s)) == Words(s)
  {
    TrimStartNoOp(TrimStart(s));
  }

  /** Trimming does not change the tokens. */
  lemma WordsOfTrim(s: string)
    ensures Words(Trim(s)) == Words(s)
  {
    var t := TrimStart(s);
    var r := TrimEnd(t);
    TrimEndSplit(t);
    WordsAppendSpaces(r, t[|r|..]);
    WordsOfTrimStart(s);
  }

  lemma TrimEndSplit(t: string)
    ensures t == TrimEnd(t) + t[|TrimEnd(t)|..]
  {
  }

  /** On a non-empty string without edge white space, `split(/\s+/)` yields
      exactly the tokens. */
  lemma {:induction false} SplitSpacesIsWords(t: string)
    requires t != [] && Trimmed(t)
    ensures SplitSpaces(t) == Words(t)
    decreases |t|
  {
    TrimStartNoOp(t);
    var i := FirstSpace(t);
    if i < |t| {
      var rest := t[i..];
      var u := TrimStart(rest);
      assert rest[|rest| - 1] == t[|t| - 1];
      assert u[|u| - 1] == t[|t| - 1];
      SplitSpacesIsWords(u);
      WordsOfTrimStart(rest);
      assert Words(t) == [t[..i]] + Words(rest);
    } else {
      assert t[..i] == t && t[i..] == [];
      assert Words(t) == [t] + Words([]);
    }
  }

  /** `split(/\s+/)` of a string that trims to nothing is one empty piece. */
  lemma SplitSpacesEmpty()
    ensures SplitSpaces([]) == [[]]
  {
  }

  /** The tokens of a string are empty exactly when it is all white space. */
  lemma WordsEmptyIffAllSpaces(s: string)
    ensures Words(s) == [] <==> AllSpaces(s)
  {
    WordsOfTrim(s);
    var t := Trim(s);
    if t != [] {
      TrimStartNoOp(t);
    }
  }

  lemma JoinClean(ws: seq<string>)
    requires ws != [] && CleanWords(ws)
    ensures Join(ws, " ") != []
    ensures Join(ws, " ")[0] == ws[0][0]
    ensures Join(ws, " ")[|Join(ws, " ")| - 1] == ws[|ws| - 1][|ws[|ws| - 1]| - 1]
  {
    if |ws| > 1 {
      JoinClean(ws[1..]);
    }
  }

  /** A single clean word is its own only token. */
  lemma WordsOfWord(w: string)
    requires w != [] && Spaceless(w)
    ensures Words(w) == [w]
  {
    TrimStartNoOp(w);
    FirstSpaceAfterWord(w, []);
    assert w + [] == w;
    assert w[..|w|] == w && w[|w|..] == [];
  }

  /** A clean word followed by one space contributes exactly itself. */
  lemma WordsOfWordThenRest(w: string, j: string)
    requires w != [] && Spaceless(w)
    ensures Words(w + " " + j) == [w] + Words(j)
  {
    var s := w + " " + j;
    assert s == w + (" " + j);
    TrimStartNoOp(s);
    FirstSpaceAfterWord(w, " " + j);
    assert s[..|w|] == w;
    assert s[|w|..] == " " + j;
    WordsSkipSpace(" " + j);
    assert (" " + j)[1..] == j;
  }

  lemma JoinCleanEmpty(ws: seq<string>)
    requires CleanWords(ws)
    ensures Join(ws, " ") == [] <==> ws == []
  {
    if ws != [] {
      JoinClean(ws);
    }
  }

  /** Round trip: the tokens of words joined by single spaces are the words. */
  lemma {:induction false} WordsOfJoin(ws: seq<string>)
    requires CleanWords(ws)
    ensures Words(Join(ws, " ")) == ws
    decreases |ws|
  {
    if ws != [] {
      var rest := ws[1..];
      assert ws == [ws[0]] + rest;
      if rest == [] {
        WordsOfWord(ws[0]);
      } else {
        WordsOfJoin(rest);
        WordsOfJoinStep(ws[0], rest);
      }
    }
  }

  /** One step of `WordsOfJoin`: a leading clean word comes out as the first token. */
  lemma WordsOfJoinStep(w: string, rest: seq<string>)
    requires w != [] && Spaceless(w) && rest != []
    ensures Words(Join([w] + rest, " ")) == [w] + Words(Join(rest, " "))
  {
    var ws := [w] + rest;
    assert ws[0] == w && ws[1..] == rest;
    WordsOfWordThenRest(w, Join(rest, " "));
  }

  /** Words joined by single spaces are single-spaced. */
  lemma {:induction false} JoinSingleSpaced(ws: seq<string>)
    requires CleanWords(ws)
    ensures SingleSpaced(Join(ws, " "))
    decreases |ws|
  {
    if |ws| > 1 {
      var w := ws[0];
      var j := Join(ws[1..], " ");
      var s := Join(ws, " ");
      JoinSingleSpaced(ws[1..]);
      JoinClean(ws[1..]);
      assert s == w + " " + j;
      assert forall i :: 0 <= i < |w| ==> s[i] == w[i];
      forall i | 0 <= i < |s| && IsSpace(s[i])
        ensures s[i] == ' ' && 0 < i < |s| - 1 && !IsSpace(s[i - 1]) && !IsSpace(s[i + 1])
      {
        if i == |w| {
          assert s[i - 1] == w[|w| - 1];
          assert s[i + 1] == j[0];
        } else {
          assert s[i] == j[i - |w| - 1];
          assert s[i + 1] == j[i - |w|];
          if i - 1 == |w| {
          } else {
            assert s[i - 1] == j[i - |w| - 2];
          }
        }
      }
    }
  }

  lemma CapitalizeAllClean(ws: seq<string>)
    requires CleanWords(ws)
    ensures CleanWords(CapitalizeAll(ws))
  {
  }

  lemma CapitalizeAllIdempotent(ws: seq<string>)
    ensures CapitalizeAll(CapitalizeAll(ws)) == CapitalizeAll(ws)
  {
  }
}

=== FILE: user_role.dfy ===
/**
 `updateUserRoleAction` of `src/actions/update-user-role.ts`: an
 authenticated ADMIN sets the role of any user, themselves included.
 */
module UserRoleAction {
  import opened Common
  import opened Model

  const InsufficientPermissions := "Insufficient permissions. Admin access required."
  const RoleUpdateFailed := "Failed to update user role. Please try again."

  /** `prisma.user.update` throws when `userId` names no user; `fault`
      stands for any other database error. Both reach the `catch`. */
  function UpdateUserRole(session: Session, db: Db, userId: string, newRole: Role, fault: bool)
    : (o: Outcome<UserRecord>)
    ensures o.revalidated == []
    ensures o.db.links == db.links
    ensures session.None? ==> o.response == Err(NotAuthenticated) && o.db == db
    ensures session.Some? && !IsAdmin(session.value) ==>
      o.response == Err(InsufficientPermissions) && o.db == db
    ensures session.Some? && IsAdmin(session.value) && (fault || userId !in db.users) ==>
      o.response == Err(RoleUpdateFailed) && o.db == db
    ensures o.response.Ok? <==>
      session.Some? && IsAdmin(session.value) && !fault && userId in db.users
    ensures o.response.Err? ==> o.db == db
    ensures o.response.Ok? ==>
      var before, after := db.users[userId], o.response.payload;
      && after.id == before.id && after.name == before.name && after.email == before.email
      && after.role == newRole
      && o.db.users.Keys == db.users.Keys
      && o.db.users[userId] == after
      && (forall u :: u in db.users && u != userId ==> o.db.users[u] == db.users[u])
  {
    match session
    case None => Outcome(Err(NotAuthenticated), db, [])
    case Some(caller) =>
      if caller.role != ADMIN then Outcome(Err(InsufficientPermissions), db, [])
      else if fault || userId !in db.users then Outcome(Err(RoleUpdateFailed), db, [])
      else
        var updated := db.users[userId].(role := newRole);
        Outcome(Ok(updated), db.(users := db.users[userId := updated]), [])
  }

  /** Authentication is decided first: a request without a session never
      sees the permissions error, whatever it asks for. */
  lemma UnauthenticatedNeverSeesPermissionError(db: Db, userId: string, newRole: Role, fault: bool)
    ensures UpdateUserRole(None, db, userId, newRole, fault).response != Err(InsufficientPermissions)
  {
  }

  /** Permission depends only on the caller's role: an admin may change
      their own role, demoting themselves included. */
  lemma AdminMayChangeOwnRole(caller: SessionUser, db: Db, newRole: Role)
    requires IsAdmin(caller) && caller.id in db.users
    ensures var o := UpdateUserRole(Some(caller), db, caller.id, newRole, false);
      o.response.Ok? && o.db.users[caller.id].role == newRole
  {
  }

  /** Setting the same role twice leaves the users as the first call did. */
  lemma UpdateUserRoleIdempotent(session: Session, db: Db, userId: string, newRole: Role)
    ensures var once := UpdateUserRole(session, db, userId, newRole, false);
      UpdateUserRole(session, once.db, userId, newRole, false).db == once.db
  {
    var once := UpdateUserRole(session, db, userId, newRole, false);
    if once.response.Ok? {
      assert once.db.users[userId := once.db.users[userId].(role := newRole)] == once.db.users;
    }
  }

  lemma UpdateUserRolePreservesValid(session: Session, db: Db, userId: string, newRole: Role, fault: bool)
    requires Valid(db)
    ensures Valid(UpdateUserRole(session, db, userId, newRole, fault).db)
  {
  }
}

=== FILE: utils.dfy ===
/**
 The pure helpers of `src/lib/utils.ts`: display-name normalisation and the
 list of e-mail domains accepted at registration.
 */
module Utils {
  import opened Text
  import opened Common

  /** `normalizeName`: trim, split on runs of white space, capitalise each
      piece and join the pieces with one space. The output consists of the
      input's tokens, each capitalised, separated by single spaces. */
  function NormalizeName(name: string): (r: string)
    ensures Words(r) == CapitalizeAll(Words(name))
    ensures SingleSpaced(r)
    ensures r == [] <==> AllSpaces(name)
  {
    if name == [] then []
    else
      var pieces := SplitSpaces(Trim(name));
      var r := Join(CapitalizeAll(pieces), " ");
      NormalizeIsJoinOfTokens(name);
      CapitalizeAllClean(Words(name));
      WordsOfJoin(CapitalizeAll(Words(name)));
      JoinSingleSpaced(CapitalizeAll(Words(name)));
      WordsEmptyIffAllSpaces(name);
      JoinCleanEmpty(CapitalizeAll(Words(name)));
      r
  }

  /** The body of `normalizeName` for a non-empty input equals the
      capitalised tokens of the input joined by single spaces. */
  lemma NormalizeIsJoinOfTokens(name: string)
    ensures Join(CapitalizeAll(SplitSpaces(Trim(name))), " ")
         == Join(CapitalizeAll(Words(name)), " ")
  {
    var t := Trim(name);
    WordsOfTrim(name);
    if t == [] {
      WordsEmptyIffAllSpaces(name);
      SplitSpacesEmpty();
      CapitalizeBlank();
    } else {
      SplitSpacesIsWords(t);
    }
  }

  /** A blank input splits into one empty piece, which joins back to "". */
  lemma CapitalizeBlank()
    ensures Join(CapitalizeAll([[]]), " ") == []
    ensures Join(CapitalizeAll([]), " ") == []
  {
    assert CapitalizeAll([[]]) == [[]];
  }

  /** Normalising twice is the same as normalising once. */
  lemma NormalizeNameIdempotent(name: string)
    ensures NormalizeName(NormalizeName(name)) == NormalizeName(name)
  {
    var r := NormalizeName(name);
    var s := NormalizeName(r);
    CapitalizeAllIdempotent(Words(name));
    // Both results are determined by their tokens: the single-spaced joins of them.
    assert Words(s) == Words(r);
    SingleSpacedIsJoin(r);
    SingleSpacedIsJoin(s);
  }

  /** A single-spaced string is the single-space join of its tokens. */
  lemma {:induction false} SingleSpacedIsJoin(s: string)
    requires SingleSpaced(s)
    ensures s == Join(Words(s), " ")
    decreases |s|
  {
    if s != [] {
      assert !IsSpace(s[0]);
      TrimStartNoOp(s);
      var i := FirstSpace(s);
      if i == |s| {
        WordsOfWord(s);
      } else {
        assert s[i] == ' ' && i > 0;
        var w := s[..i];
        var j := s[i + 1..];
        assert s == w + " " + j;
        assert j != [] && !IsSpace(j[0]) && j[0] == s[i + 1];
        assert forall k :: 0 <= k < |j| ==> j[k] == s[i + 1 + k];
        assert SingleSpaced(j) by {
          forall k | 0 <= k < |j| && IsSpace(j[k])
            ensures j[k] == ' ' && 0 < k < |j| - 1 && !IsSpace(j[k - 1]) && !IsSpace(j[k + 1])
          {
            assert j[k - 1] == s[i + k];
            assert k < |j| - 1 ==> j[k + 1] == s[i + 2 + k];
          }
        }
        WordsOfWordThenRest(w, j);
        SingleSpacedIsJoin(j);
        WordsOfWord(j[..FirstSpace(j)]);
        JoinOfNonEmpty(w, Words(j));
      }
    }
  }

  lemma JoinOfNonEmpty(w: string, ws: seq<string>)
    requires ws != []
    ensures Join([w] + ws, " ") == w + " " + Join(ws, " ")
  {
    assert ([w] + ws)[1..] == ws;
  }

  // ---------------------------------------------------------------------
  // VALID_DOMAINS

  /** The two environment variables `VALID_DOMAINS` reads; `None` stands for
      an unset variable. */
  datatype Env = Env(nodeEnv: Option<string>, allowedEmailDomains: Option<string>)

  const DefaultDomains: seq<string> :=
    ["gmail.com", "yahoo.com", "outlook.com", "hotmail.com", "icloud.com"]

  /** `VALID_DOMAINS`: every domain in development, otherwise the
      comma-separated configured list (or the defaults), each entry trimmed. */
  function ValidDomains(env: Env): (r: seq<string>)
    ensures env.nodeEnv == Some("development") ==> r == ["*"]
    ensures env.nodeEnv != Some("development") && env.allowedEmailDomains.None? ==>
      r == DefaultDomains
    ensures env.nodeEnv != Some("development") && env.allowedEmailDomains.Some? ==>
      var fields := SplitOn(env.allowedEmailDomains.value, ',');
      && |r| == |fields| == Count(env.allowedEmailDomains.value, ',') + 1
      && (forall k :: 0 <= k < |r| ==> r[k] == Trim(fields[k]))
      && Join(fields, ",") == env.allowedEmailDomains.value
    ensures forall k :: 0 <= k < |r| ==> Trimmed(r[k])
  {
    if env.nodeEnv == Some("development") then ["*"]
    else if env.allowedEmailDomains.None? then
      DefaultDomainsTrimmed();
      TrimAll(DefaultDomains)
    else
      SplitOnLength(env.allowedEmailDomains.value, ',');
      TrimAll(SplitOn(env.allowedEmailDomains.value, ','))
  }

  lemma DefaultDomainsTrimmed()
    ensures TrimAll(DefaultDomains) == DefaultDomains
  {
    assert forall k :: 0 <= k < |DefaultDomains| ==> Trimmed(DefaultDomains[k]);
    TrimAllNoOp(DefaultDomains);
  }

  lemma TrimAllNoOp(ds: seq<string>)
    requires forall k :: 0 <= k < |ds| ==> Trimmed(ds[k])
    ensures TrimAll(ds) == ds
  {
    forall k | 0 <= k < |ds| ensures TrimAll(ds)[k] == ds[k] {
      TrimNoOp(ds[k]);
    }
  }

  /** `domains.map(domain => domain.trim())`. */
  function TrimAll(domains: seq<string>): (r: seq<string>)
    ensures |r| == |domains|
    ensures forall k :: 0 <= k < |r| ==> r[k] == Trim(domains[k]) && Trimmed(r[k])
  {
    seq(|domains|, k requires 0 <= k < |domains| => Trim(domains[k]))
  }
}
